=== FILE: README.md ===
# Halo stat-file reader, modelled in Dafny

This project models tangos' halo stat-file reader (`HaloStatFile` and its
subclasses `AHFStatFile`, `RockstarStatFile` and `AmigaIDLStatFile`). The
reader is a line-oriented table parser:

- the first line of a stat file is a header of column names;
- every later line that does not start with `#` is one halo;
- each halo row carries a running offset, the finder id from column 0,
  and one type-guessed value per requested column;
- `iter_rows` maps logical column names onto raw columns through each
  class's translation table, and `read` transposes the rows into columns;
- constructing a reader searches the class tree for the first class that
  finds a stat file for the timestep.

Modelling choices:

- A file is a `seq<string>` of its lines without terminators. The file
  system is a map from path to lines.
- What lies outside the reader is a parameter of the environment `Env`:
  - the results of `glob.glob`;
  - the path Rockstar derives for `RD`/`DD` timesteps;
  - the value a translation entry other than `childHalo` computes.
    `evaluate` receives the reader's class, the path of its stat file,
    the argument name, the raw argument names and the row's raw values.
    The path matters because Rockstar's unit conversions use the
    cosmology read from that instance's own file.
- A Python generator that yields rows and may then raise is a
  `RowStream`: the rows yielded, then the exception, if any.
- Cells are `None | Int | Float | Str`. `List` holds AHF's `childHalo`
  entries.
  - A float is kept as the token that `float()` accepts.
  - Which ASCII tokens `int()` and `float()` accept covers signs,
    underscores between digits, exponents and `inf`/`nan`.
  - `int()` also enforces CPython's default limit of 4300 digits (Python
    3.11 and later), which counts digits but not the sign or underscores.
- `str.split()` splits on Python's Unicode whitespace.
- Translation tables are association lists in dict insertion order.
- AHF's `_children_map` is an optional field of the instance. Iterating
  returns the possibly updated instance next to the rows.

Modules, in dependency order:

- `Wrappers`: `Option`, `Result`.
- `Errors`: the exceptions the reader raises.
- `Text`: whitespace split, split on a character, join, strip.
- `Numerals`: `int()`/`float()` literals and `%d`.
- `Cells`: column names and cell values.
- `Paths`: `os.path` basename, dirname and join, and the `halos`
  sub-folder path.
- `FileNames`: `filename` and `can_load` of every class.
- `Translations`: the translation tables.
- `AhfChildren`: the `childHalo` grouping.
- `StatFiles`: instances, `iter_rows_raw`, `iter_rows`, `read`,
  `all_columns`.
- `Selection`: `find_loadable_subclass` and `__new__`.

## Model

| member | source | states |
|---|---|---|
| Text.Split | tangos/input_handlers/halo_stat_files/__init__.py:121 | every piece of `line.split()` is non-empty and free of whitespace |
| Text.SplitKeepsNonSpace | tangos/input_handlers/halo_stat_files/__init__.py:121 | concatenating the pieces of `split()` gives exactly the non-whitespace characters of the line, in order |
| Text.SplitJoin | tangos/input_handlers/halo_stat_files/__init__.py:121 | splitting a space-joined list of whitespace-free non-empty tokens gives back that list |
| Text.SplitAtSpace | tangos/input_handlers/halo_stat_files/__init__.py:121 | a whitespace character separates pieces: the pieces of `a + c + b` are those of `a` followed by those of `b` |
| Text.Before | tangos/input_handlers/halo_stat_files/__init__.py:141 | `x.split("(")[0]` is a prefix of `x` without `(`, cut exactly at the first `(`, and all of `x` when it has none |
| Text.FirstPieceIsBefore | tangos/input_handlers/halo_stat_files/__init__.py:141 | the first piece of `split("(")` is the prefix before the first `(` |
| Text.JoinSplitOn | tangos/input_handlers/halo_stat_files/__init__.py:169-171 | joining the pieces of `split(sep)` with `sep` gives back the string |
| Numerals.ParseInt | tangos/input_handlers/halo_stat_files/__init__.py:133 | `int(token)` succeeds exactly for a signed decimal literal with single underscores between digits and at most 4300 digits |
| Numerals.ParseIntLeadingZeros | tangos/input_handlers/halo_stat_files/__init__.py:218 | leading zeros do not change the value `int()` reads, within the digit limit |
| Numerals.ParseIntSigned | tangos/input_handlers/halo_stat_files/__init__.py:133 | a leading `+` leaves the result of `int()` unchanged and a leading `-` negates it |
| Numerals.ParseIntUnderscore | tangos/input_handlers/halo_stat_files/__init__.py:133 | one underscore between digit groups does not change the result of `int()` |
| Numerals.ParseIntTooManyDigits | tangos/input_handlers/halo_stat_files/__init__.py:133 | a string of more than 4300 digits is refused, whatever its value |
| Numerals.IntToString | tangos/input_handlers/halo_stat_files/__init__.py:219 | `%d` writes `-` exactly for a negative number, then its decimal digits with no leading zero except for `0` itself |
| Numerals.ParseIntToString | tangos/input_handlers/halo_stat_files/__init__.py:219 | `int("%d" % n) == n` for every integer of at most 4300 digits |
| Numerals.IntToStringShape | tangos/input_handlers/halo_stat_files/__init__.py:127-130 | `%d` output of at most 4300 digits has no `.` and no `e`, so the reader guesses `int` for it, and it is an integer literal |
| Numerals.IntOfString | tangos/input_handlers/halo_stat_files/__init__.py:218 | `int()` of a whitespace-free string is the literal parse of that string |
| Numerals.IntOfStringSurroundingSpace | tangos/input_handlers/halo_stat_files/__init__.py:218 | `int()` ignores runs of its whitespace (ASCII space and `\t\n\v\f\r`, non-ASCII Unicode spaces) on both sides and parses what lies between, so `int()` is determined on every string |
| Numerals.IntOfStringSeparatorFails | tangos/input_handlers/halo_stat_files/__init__.py:218 | a character 0x1c-0x1f anywhere makes `int()` raise ValueError, although `str.isspace` counts it as whitespace |
| Cells.CastToken | tangos/input_handlers/halo_stat_files/__init__.py:127-135 | a token with `.` or `e` becomes a float exactly when it is a float literal; any other token becomes an int exactly when it is an int literal, with the literal's value; a failed cast keeps the token unchanged; the result is never `None` |
| Cells.CastIntToString | tangos/input_handlers/halo_stat_files/__init__.py:127-135 | a `%d`-rendered integer of at most 4300 digits is read back as that integer |
| Cells.ColumnNames | tangos/input_handlers/halo_stat_files/__init__.py:140-141 | one name per header token; each name is the token's prefix up to its first `(`, and a leading `#` (as in `#ID`) is kept |
| Cells.ColumnNamesOfJoin | tangos/input_handlers/halo_stat_files/__init__.py:140-141 | a header written as space-separated names without `(` reads back as those names |
| Cells.ColumnIndices | tangos/input_handlers/halo_stat_files/__init__.py:70-75 | position 0 is requested first; then each argument gets `header.index` of its name, or no index exactly when the name is missing from the header |
| Cells.ValuesForColumns | tangos/input_handlers/halo_stat_files/__init__.py:119-138 | succeeds exactly when the line has a token at every requested index, with one value per index; otherwise raises IndexError |
| Cells.ValuesForColumnsCells | tangos/input_handlers/halo_stat_files/__init__.py:119-138 | a value is `None` exactly for a column missing from the header; otherwise it is the type-guessed token at that index |
| Cells.BlankLineFails | tangos/input_handlers/halo_stat_files/__init__.py:121-126 | a blank line after the header raises IndexError, because it has no finder id |
| Paths.PathJoin | tangos/input_handlers/halo_stat_files/__init__.py:219 | `os.path.join` returns an absolute second part unchanged, appends directly to an empty first part or one ending in `/`, and otherwise puts exactly one `/` between the parts |
| Paths.Basename | tangos/input_handlers/halo_stat_files/__init__.py:215 | `os.path.basename` is the longest suffix without `/`: it has no `/`, and the character before it, if any, is `/` |
| Paths.Dirname | tangos/input_handlers/halo_stat_files/__init__.py:216 | `os.path.dirname` is a prefix ending before the last `/`; only slashes lie between it and that point; it is empty exactly when there is no `/`; and it ends in `/` only when it is all slashes |
| Paths.HalosSubfolderInsertsDirectory | tangos/input_handlers/halo_stat_files/__init__.py:169-171 | the second AHF search path is the timestep's directory part, then `halos/`, then its file name |
| FileNames.AhfFileName | tangos/input_handlers/halo_stat_files/__init__.py:162-177 | the first match beside the timestep, else the first match in its `halos` sub-folder, else `CannotFindAHFHaloFilename` |
| FileNames.SplitDirectoryAndName | tangos/input_handlers/halo_stat_files/__init__.py:215-216 | basename and dirname of `dir/name` are `name` and `dir` |
| FileNames.RockstarSnapshotPath | tangos/input_handlers/halo_stat_files/__init__.py:213-219 | a `snapshot_<n>` timestep in a directory, with `<n>` written as `%d` after any number of leading zeros, maps to `out_<n>.list` in the same directory |
| FileNames.RockstarBareSnapshotPath | tangos/input_handlers/halo_stat_files/__init__.py:213-219 | a `snapshot_<n>` timestep without a directory, zero-padded or not, maps to the bare name `out_<n>.list` |
| FileNames.RockstarRootSnapshotPath | tangos/input_handlers/halo_stat_files/__init__.py:213-219 | a `snapshot_<n>` timestep directly under the root, `/snapshot_<n>`, zero-padded or not, maps to `/out_<n>.list` |
| FileNames.RockstarFileName | tangos/input_handlers/halo_stat_files/__init__.py:213-239 | Rockstar's `filename` raises exactly for a `snapshot_` base name whose suffix `int()` rejects, and then raises ValueError; an `RD`/`DD` base name is handed to the yt lookup, and any other base name gives the placeholder `CannotComputeRockstarFilename` |
| FileNames.RockstarRejectsSeparatorInSnapshot | tangos/input_handlers/halo_stat_files/__init__.py:33-38 | a character 0x1c-0x1f after `snapshot_` makes `int()` raise, so `can_load` is false for Rockstar |
| FileNames.RockstarRejectsNonIntegerSnapshot | tangos/input_handlers/halo_stat_files/__init__.py:217-218 | a `snapshot_` suffix that `int()` rejects raises ValueError in `filename`, so Rockstar cannot load the timestep |
| FileNames.BaseNeverLoads | tangos/input_handlers/halo_stat_files/__init__.py:34-42 | the base class's `filename` always raises, so `can_load` is false for it |
| FileNames.AmigaLoadsIffStatFileExists | tangos/input_handlers/halo_stat_files/__init__.py:260-262 | Amiga IDL can load a timestep exactly when `<timestep>.amiga.stat` exists |
| FileNames.FileName | tangos/input_handlers/halo_stat_files/__init__.py:40-42 | `filename` raises only ValueError; the base class always raises; AHF and Amiga IDL never raise |
| FileNames.CanLoad | tangos/input_handlers/halo_stat_files/__init__.py:33-38 | `can_load` holds exactly when `filename` succeeds and names an existing file, so it is false whenever `filename` raises |
| Translations.Put | tangos/input_handlers/halo_stat_files/__init__.py:160 | dict assignment keeps an existing key's position and appends a new key; the key then maps to the new entry |
| Translations.PutLeavesOtherKeys | tangos/input_handlers/halo_stat_files/__init__.py:159-160 | assignment under one key keeps keys unique and leaves every other key's entry unchanged |
| Translations.PutKeepsUniqueKeys | tangos/input_handlers/halo_stat_files/__init__.py:159-160 | assignment keeps the keys of a dict unique |
| Translations.PutKeepsOtherEntry | tangos/input_handlers/halo_stat_files/__init__.py:159-160 | assignment under one key leaves the entry of every other key in place, whether or not keys are unique |
| Translations.AhfInstanceTableExtendsClassTable | tangos/input_handlers/halo_stat_files/__init__.py:149-160 | the class table has no `childHalo`; the instance table is the class table with `childHalo` appended, and every class entry is kept |
| Translations.RawArgs | tangos/input_handlers/halo_stat_files/__init__.py:95-100 | every untranslated argument and every input of every translated argument is among the raw arguments |
| AhfChildren.CalculateChildren | tangos/input_handlers/halo_stat_files/__init__.py:179-186 | the children map has no entry for host `-1`, and every host in it has at least one child |
| AhfChildren.CalculateChildrenIsGrouping | tangos/input_handlers/halo_stat_files/__init__.py:179-186 | the children map has exactly the host values other than -1 that occur; each list holds that host's children in file order, as the filter-based reference definition gives them |
| AhfChildren.ChildHaloEntryIsChildren | tangos/input_handlers/halo_stat_files/__init__.py:192-195 | the `childHalo` entry of a halo lists exactly the halos naming it as host, in file order, and is `[]` when there are none |
| StatFiles.Init | tangos/input_handlers/halo_stat_files/__init__.py:44-46 | an instance records the kind, the timestep and the path `filename` gives; it fails exactly when `filename` raises, or for Rockstar when the file is missing; no children map yet; the translation table is empty for the base class, the class table plus `childHalo` for AHF, and the class table for Rockstar and Amiga IDL |
| StatFiles.DataLinesAppend | tangos/input_handlers/halo_stat_files/__init__.py:76-77 | the lines that yield rows from two stretches of lines are those of the first followed by those of the second |
| StatFiles.DataLinesOfLine | tangos/input_handlers/halo_stat_files/__init__.py:76-77 | a single line yields a row exactly when it does not start with `#` |
| StatFiles.RawRows | tangos/input_handlers/halo_stat_files/__init__.py:76-81 | the loop yields at most one row per non-comment line, all of them exactly when it does not raise, raises only IndexError, and every row has one entry per requested position plus the counter |
| StatFiles.RawRowsStop | tangos/input_handlers/halo_stat_files/__init__.py:76-81 | when the loop raises, it does so at the data line right after its last row, and that line is too short for the requested columns |
| StatFiles.RawRowsCounter | tangos/input_handlers/halo_stat_files/__init__.py:67-81 | row `i` starts with the counter `start + i`: comment lines do not advance it |
| StatFiles.RawRowsCells | tangos/input_handlers/halo_stat_files/__init__.py:69-80 | row `i` holds the cells of the `i`-th non-comment line |
| StatFiles.RawRowsOnlySeeDataLines | tangos/input_handlers/halo_stat_files/__init__.py:76-81 | the rows are those of the non-comment lines alone |
| StatFiles.DataLinesSkipComment | tangos/input_handlers/halo_stat_files/__init__.py:76-77 | removing a `#` line leaves the lines that yield rows unchanged |
| StatFiles.CommentLineChangesNothing | tangos/input_handlers/halo_stat_files/__init__.py:76-81 | inserting a `#` line anywhere after the header changes neither the rows nor their offsets |
| StatFiles.LineRowCells | tangos/input_handlers/halo_stat_files/__init__.py:69-80 | the row built from a line long enough for the requested columns holds the type-guessed first token, and per argument `None` when the header lacks the name, else the type-guessed token at `header.index` of the name |
| StatFiles.RawRowsShape | tangos/input_handlers/halo_stat_files/__init__.py:67-81 | the k-th row of the loop comes from the k-th non-comment line, with counter `start + k`, the finder id from column 0, and per argument `None` or the token under that column |
| StatFiles.IterRowsRawShape | tangos/input_handlers/halo_stat_files/__init__.py:55-81 | outside Amiga IDL, row `k` of `iter_rows_raw` on an existing file comes from the `k`-th non-comment line after the header: counter `_finder_offset_start + k`, the finder id from column 0, and per argument `None` or the token under its header column |
| StatFiles.IterRowsRawOutcome | tangos/input_handlers/halo_stat_files/__init__.py:55-81 | a missing file raises before any row; otherwise at most one row per non-comment line after the header, all of them exactly when no exception is raised, and the only exception is IndexError |
| StatFiles.BaseRawRows | tangos/input_handlers/halo_stat_files/__init__.py:55-81 | every raw row has length `2 + len(args)` |
| StatFiles.OverwriteOffsets | tangos/input_handlers/halo_stat_files/__init__.py:275-277 | same number of rows and same exception; each row's offset becomes its finder id, and the rest is unchanged |
| StatFiles.AmigaRowsRepeatFinderId | tangos/input_handlers/halo_stat_files/__init__.py:264-277 | Amiga IDL rows have `row[0] == row[1]`, and everything after the offset equals the base reader's row |
| StatFiles.IterRowsRaw | tangos/input_handlers/halo_stat_files/__init__.py:55-81 | every raw row of every reader class has length `2 + len(args)` |
| StatFiles.TranslateRow | tangos/input_handlers/halo_stat_files/__init__.py:102-108 | the row has `2 + len(args)` entries and copies offset and finder id from the raw row |
| StatFiles.ArgValue | tangos/input_handlers/halo_stat_files/__init__.py:103-107 | a `childHalo` argument yields a list, and an argument without a translation entry yields one of the raw values |
| StatFiles.ArgValuesAt | tangos/input_handlers/halo_stat_files/__init__.py:103-107 | the value list holds, at position `j`, the value of the `j`-th argument |
| StatFiles.TranslateRowPassesThrough | tangos/input_handlers/halo_stat_files/__init__.py:106-107 | an argument without a translation entry is among the raw arguments and takes the raw value at the first index of its name there |
| StatFiles.TranslateRows | tangos/input_handlers/halo_stat_files/__init__.py:101-108 | one translated row of `2 + len(args)` entries per raw row, with the same exception |
| StatFiles.TranslateEachAt | tangos/input_handlers/halo_stat_files/__init__.py:101-108 | the `i`-th translated row is the translation of the `i`-th raw row |
| StatFiles.IterRows | tangos/input_handlers/halo_stat_files/__init__.py:83-108 | rows have length `2 + len(args)`; an instance with a children map is returned unchanged; a newly stored map is the one `_calculate_children` computes |
| StatFiles.TranslateRowsPassesThrough | tangos/input_handlers/halo_stat_files/__init__.py:101-108 | the translated stream has one row per raw row, with offset, finder id and untranslated arguments passed through |
| StatFiles.IterRowsPassThrough | tangos/input_handlers/halo_stat_files/__init__.py:95-108 | when `_calculate_children` runs in this call and raises, `iter_rows` yields no row and raises that exception; otherwise it yields exactly one row per raw row and then raises whatever the raw loop raised (or nothing); every row takes offset, finder id and untranslated arguments from its raw row |
| StatFiles.TranslateRowsChildHalo | tangos/input_handlers/halo_stat_files/__init__.py:192-195 | a `childHalo` argument yields the children map's entry for the row's `#ID` value |
| StatFiles.IterRowsChildHalo | tangos/input_handlers/halo_stat_files/__init__.py:179-195 | on a fresh AHF instance the stored map is the computed grouping, and each row's `childHalo` value is that map's entry for the row's `#ID` |
| StatFiles.ComputeChildrenGroupsHosts | tangos/input_handlers/halo_stat_files/__init__.py:179-186 | `_calculate_children` raises what the raw row loop raises, and the entry of every host id is the list of rows naming it as host, in file order |
| StatFiles.ChildrenComputedAtMostOnce | tangos/input_handlers/halo_stat_files/__init__.py:188-190 | once an instance holds a children map, later iterations keep the instance unchanged and read the cached map |
| StatFiles.AllColumns | tangos/input_handlers/halo_stat_files/__init__.py:48-53 | fails exactly when the file is missing; otherwise the header's names followed by the translation keys in order |
| StatFiles.Transpose | tangos/input_handlers/halo_stat_files/__init__.py:112-115 | one column per row position; column `c` lists entry `c` of every row, in row order |
| StatFiles.Read | tangos/input_handlers/halo_stat_files/__init__.py:110-117 | fails exactly when `iter_rows` raises, with its exception; otherwise the lists collected before the `np.array` conversion: `2 + len(args)` lists, each holding the rows' entries at that position in order |
| Selection.FirstLoadableOf | tangos/input_handlers/halo_stat_files/__init__.py:24-31 | a class found can load the timestep and no class before it in the list can; none is found exactly when no class of the list can load it |
| Selection.FindLoadableSubclass | tangos/input_handlers/halo_stat_files/__init__.py:24-31 | a class found can load the timestep and belongs to the searched tree; when none is found, no class of the tree can load it |
| Selection.FindLoadableAmong | tangos/input_handlers/halo_stat_files/__init__.py:27-30 | the loop over subclasses finds a loadable class of one of the subtrees, or none exactly when no class in them can load |
| Selection.FindIsFirstInPreorder | tangos/input_handlers/halo_stat_files/__init__.py:24-31 | the depth-first search returns the first loadable class in pre-order: the class itself, then its subclass trees in order |
| Selection.FindAmongIsFirstInPreorder | tangos/input_handlers/halo_stat_files/__init__.py:27-31 | the subclass loop returns the first loadable class in the pre-order of the subtrees |
| Selection.Open | tangos/input_handlers/halo_stat_files/__init__.py:16-21 | `HaloStatFile(ts)` raises the "no stat file" OSError exactly when the search finds no class; otherwise the instance is of the class found and reads an existing file that class's `filename` names |
| Selection.LoadableInitSucceeds | tangos/input_handlers/halo_stat_files/__init__.py:33-46 | a class whose `can_load` holds initialises without error, as that class, on an existing file |
| Selection.OpenFailsIffNothingLoads | tangos/input_handlers/halo_stat_files/__init__.py:16-21 | construction raises the "no stat file" error exactly when no class of the tree can load the timestep; otherwise the instance is of the first loadable class and reads an existing file named by that class |
| Selection.PreorderOfStatFileClasses | tangos/input_handlers/halo_stat_files/__init__.py:146-252 | the classes are visited as HaloStatFile, AHF, Rockstar, Amiga IDL |
| Selection.StatFileClassPreference | tangos/input_handlers/halo_stat_files/__init__.py:16-31 | `HaloStatFile(ts)` chooses AHF if it can load, else Rockstar, else Amiga IDL, else nothing |

## Left out

- Floating point: float values are opaque tokens. Python's `-1 == -1.0`
  and the merging of equal int and float keys in the children dict are not
  modelled. A float `hostHalo` of `-1.0` counts as a host here.
- `float()` also ignores surrounding whitespace. Stat-file tokens never
  carry whitespace, so only `int()` of a path suffix models it.
- Numerals.IntOfString: `int()` also accepts non-ASCII Unicode decimal
  digits (`int("٧") == 7`), and the model refuses them, so a Rockstar
  `snapshot_` suffix written in such digits raises here. Only ASCII
  digits are modelled, and the same holds for the casts of stat-file
  tokens.
- Numerals.IntToString: `%d` itself raises ValueError for a number of more
  than 4300 digits under CPython's limit. The model writes any number; the
  reader only formats numbers it has just parsed, which are within the
  limit.
- The `translations` module and `proxy_object` are not part of this
  model. What every translation other than `childHalo` computes is the
  environment's `evaluate` parameter, which cannot fail. `childHalo` is
  modelled concretely: it reads the value at the first `#ID` position
  among the raw arguments and looks it up in the children map, whose
  computation can raise. Exceptions raised inside a translation
  are not modelled, for instance the AttributeError of a Rockstar
  conversion when the file has no `#a` or `#O` line, so that `_get_cosmo`
  never set `cosmo_a` or `cosmo_h`.
  - The raw inputs of the `DefaultValue`, `Rename` and `Value` entries are
    taken to be their column arguments (none for `Value`).
  - Child entries and hosts are plain finder ids, not proxy objects.
- `Env.glob` stands in for `glob.glob`, so `AhfFileName` states only the
  order of the two searches.
- The `RD`/`DD` branch of `RockstarStatFile.filename` is the parameter
  `Env.ytRockstarPath`. It reads `datasets.txt` or lists directories, and
  its exceptions are not modelled.
- `_get_cosmo` and the Rockstar unit conversions are floating-point
  arithmetic. Only `_get_cosmo` opening the file is modelled: Rockstar
  construction fails when the file is missing.
- StatFiles.Read: `read` converts each column with `np.array`, and the
  model returns the plain lists instead. That conversion can itself fail
  or change values: a `childHalo` column of lists of different lengths
  raises ValueError (NumPy 1.24 and later), and a column mixing ints and
  strings becomes an array of strings.
- File reading is whole-file: lines are given without terminators, and a
  final newline adds no line. The file is assumed to decode as text, so a
  UnicodeDecodeError is not modelled. Concurrent changes to the file
  system are not modelled.
- Translation entries are evaluated lazily, row by row. The environment's
  `evaluate` cannot fail, and the only entry that can raise, `childHalo`,
  does so on the first row, so the order of evaluation does not matter
  here.

=== FILE: cells.dfy ===
/**
 * Header and cell parsing: `HaloStatFile._read_column_names` and
 * `HaloStatFile._get_values_for_columns`.
 */
module Cells {
  import opened Wrappers
  import opened Text
  import opened Numerals
  import opened Errors

  /** A value in a row. Float values are kept as the token that
      `float()` accepted; `List` holds the child finder ids of AHF's
      virtual `childHalo` column. */
  datatype Value =
    | None
    | Int(n: int)
    | Float(token: string)
    | Str(text: string)
    | List(items: seq<Value>)

  /** A row as the reader yields it. */
  type Row = seq<Value>

  /** The reader guesses `float` for tokens containing '.' or 'e'. */
  predicate GuessesFloat(t: string) {
    '.' in t || 'e' in t
  }

  /** Type-guessing of one token: the guessed cast, or the token itself
      when that cast raises ValueError. */
  function CastToken(t: string): (v: Value)
    ensures v.Float? ==> GuessesFloat(t) && IsFloatLiteral(t) && v.token == t
    ensures v.Int? ==> !GuessesFloat(t) && ParseInt(t) == Some(v.n)
    ensures v.Str? <==> (if GuessesFloat(t) then !IsFloatLiteral(t) else !IsIntLiteral(t))
    ensures v.Str? ==> v.text == t
    ensures !v.None? && !v.List?
  {
    if GuessesFloat(t) then
      if IsFloatLiteral(t) then Float(t) else Str(t)
    else
      match ParseInt(t)
      case Some(n) => Int(n)
      case None => Str(t)
  }

  /** A `%d`-rendered integer reads back as that integer, within the
      digit limit of `int()`. */
  lemma CastIntToString(n: int)
    requires DigitCount(n) <= MaxStrDigits
    ensures CastToken(IntToString(n)) == Int(n)
  {
    IntToStringShape(n);
    ParseIntToString(n);
  }

  /** A header token's column name: the part before its first '('. */
  function ColumnName(token: string): string {
    Before(token, '(')
  }

  /** `_read_column_names` applied to the header line: one name per
      whitespace-separated token. */
  function ColumnNames(header: string): (names: seq<string>)
    ensures |names| == |Split(header)|
    ensures forall i :: 0 <= i < |names| ==>
              var tok := Split(header)[i];
              && StartsWith(tok, names[i])
              && '(' !in names[i]
              && (|names[i]| < |tok| ==> tok[|names[i]|] == '(')
              && (tok[0] == '#' ==> |names[i]| > 0 && names[i][0] == '#')
  {
    var toks := Split(header);
    seq(|toks|, i requires 0 <= i < |toks| => ColumnName(toks[i]))
  }

  /** A header written as space-separated names (none containing '(' or
      whitespace) reads back as those names. */
  lemma ColumnNamesOfJoin(names: seq<string>)
    requires forall i :: 0 <= i < |names| ==> IsToken(names[i]) && '(' !in names[i]
    ensures ColumnNames(JoinWith(names, " ")) == names
  {
    SplitJoin(names);
    var r := ColumnNames(JoinWith(names, " "));
    forall i | 0 <= i < |names|
      ensures r[i] == names[i]
    {
      assert Before(names[i], '(') == names[i];
    }
  }

  /** The header position of each requested column, `None` for a name
      missing from the header; position 0 (the finder id) comes first. */
  function ColumnIndices(header: seq<string>, args: seq<string>): (ids: seq<Option<nat>>)
    ensures |ids| == 1 + |args|
    ensures ids[0] == Some(0)
    ensures forall j :: 0 <= j < |args| ==>
              (ids[j + 1].Some? <==> args[j] in header)
              && (ids[j + 1].Some? ==> ids[j + 1].value == IndexOf(header, args[j]) < |header|)
  {
    var rest := ArgIndices(header, args);
    assert forall j :: 0 <= j < |args| ==> ([Some(0)] + rest)[j + 1] == rest[j];
    [Some(0)] + rest
  }

  /** `row` is the raw row of the `k`-th data line `line` of a file whose
      offsets count from `start`: the offset `start + k`, followed by the
      cells of `line`. */
  ghost predicate RowShape(header: seq<string>, args: seq<string>, line: string, start: int, k: nat, row: Row) {
    |row| > 0 && row[0] == Int(start + k) && RowCells(header, args, line, row)
  }

  /** After the offset, `row` holds the type-guessed first token of `line`
      (the finder id), then per argument `None` when the header lacks its
      column, else the type-guessed token at that column's header index. */
  ghost predicate RowCells(header: seq<string>, args: seq<string>, line: string, row: Row) {
    && |row| == 2 + |args|
    && |Split(line)| > 0
    && row[1] == CastToken(Split(line)[0])
    && forall j :: 0 <= j < |args| ==>
         && (args[j] !in header ==> row[2 + j] == Value.None)
         && (args[j] in header ==>
               IndexOf(header, args[j]) < |Split(line)|
               && row[2 + j] == CastToken(Split(line)[IndexOf(header, args[j])]))
  }

  /** The header position of each argument, `None` when it is missing. */
  function ArgIndices(header: seq<string>, args: seq<string>): (ids: seq<Option<nat>>)
    ensures |ids| == |args|
    ensures forall j :: 0 <= j < |args| ==>
              (ids[j].Some? <==> args[j] in header)
              && (ids[j].Some? ==> ids[j].value == IndexOf(header, args[j]) < |header|)
    decreases |args|
  {
    if |args| == 0 then []
    else
      var k := IndexOf(header, args[0]);
      [if k < |header| then Some(k) else Option.None] + ArgIndices(header, args[1..])
  }

  /** The line has a token for every requested position. */
  predicate Fits(ids: seq<Option<nat>>, tokens: seq<string>) {
    forall j :: 0 <= j < |ids| ==> ids[j].Some? ==> ids[j].value < |tokens|
  }

  function Cell(id: Option<nat>, tokens: seq<string>): Value
    requires id.Some? ==> id.value < |tokens|
  {
    match id
    case None => Value.None
    case Some(k) => CastToken(tokens[k])
  }

  /** `_get_values_for_columns`: one value per requested position, or the
      IndexError raised when the line is too short. */
  function ValuesForColumns(ids: seq<Option<nat>>, line: string): (r: Result<seq<Value>, Error>)
    ensures r.Success? <==> Fits(ids, Split(line))
    ensures r.Failure? ==> r.error == IndexError
    ensures r.Success? ==> |r.value| == |ids|
  {
    var tokens := Split(line);
    if Fits(ids, tokens) then Success(Cells(ids, tokens)) else Failure(IndexError)
  }

  /** The value at each requested position of a line long enough for all. */
  function Cells(ids: seq<Option<nat>>, tokens: seq<string>): (r: seq<Value>)
    requires Fits(ids, tokens)
    ensures |r| == |ids|
    ensures forall j :: 0 <= j < |ids| ==> r[j] == Cell(ids[j], tokens)
    decreases |ids|
  {
    if |ids| == 0 then []
    else
      assert ids[0].Some? ==> ids[0].value < |tokens|;
      [Cell(ids[0], tokens)] + Cells(ids[1..], tokens)
  }

  /** Position `j` of a line's values is `None` exactly for a column
      missing from the header, and otherwise the type-guessed token at
      that column's index. */
  lemma ValuesForColumnsCells(ids: seq<Option<nat>>, line: string)
    requires Fits(ids, Split(line))
    ensures forall j :: 0 <= j < |ids| ==>
              (ValuesForColumns(ids, line).value[j] == Value.None <==> ids[j] == Option.None)
              && (ids[j].Some? ==> ValuesForColumns(ids, line).value[j] == CastToken(Split(line)[ids[j].value]))
  {}

  /** A line without tokens (blank, or only whitespace) cannot be a data
      line: looking up the finder id in column 0 fails. */
  lemma BlankLineFails(ids: seq<Option<nat>>, line: string)
    requires |ids| > 0 && ids[0] == Some(0)
    requires Split(line) == []
    ensures ValuesForColumns(ids, line) == Failure(IndexError)
  {}
}

=== FILE: children.dfy ===
/**
 * AHF's virtual `childHalo` column: `AHFStatFile._calculate_children`
 * groups the finder ids of the rows by their `hostHalo` value, and
 * `_child_halo_entry` looks one finder id up in that grouping.
 */
module AhfChildren {
  import opened Cells

  /** Host finder id -> finder ids of its children, in file order. */
  type ChildrenMap = map<Value, seq<Value>>

  /** The `hostHalo` value of a halo that has no host. */
  const NoHost: Value := Int(-1)

  /** Rows of `iter_rows_raw("hostHalo")`: offset, finder id, host. */
  predicate HostRows(rows: seq<Row>) {
    forall i :: 0 <= i < |rows| ==> |rows[i]| == 3
  }

  /** `_calculate_children`: the rows are visited in file order and every
      row with a host appends its finder id to that host's list. */
  function CalculateChildren(rows: seq<Row>): (m: ChildrenMap)
    requires HostRows(rows)
    ensures NoHost !in m
    ensures forall h :: h in m ==> |m[h]| > 0
  {
    if |rows| == 0 then map[]
    else
      var m := CalculateChildren(rows[..|rows| - 1]);
      var row := rows[|rows| - 1];
      if row[2] == NoHost then m
      else m[row[2] := (if row[2] in m then m[row[2]] else []) + [row[1]]]
  }

  /** Reference definition: the finder ids of the rows whose host is `h`. */
  function ChildrenOf(rows: seq<Row>, h: Value): seq<Value>
    requires HostRows(rows)
  {
    if |rows| == 0 then []
    else (if rows[0][2] == h then [rows[0][1]] else []) + ChildrenOf(rows[1..], h)
  }

  lemma {:induction false} ChildrenOfSnoc(rows: seq<Row>, h: Value)
    requires HostRows(rows) && |rows| > 0
    ensures ChildrenOf(rows, h) ==
              ChildrenOf(rows[..|rows| - 1], h)
              + (if rows[|rows| - 1][2] == h then [rows[|rows| - 1][1]] else [])
  {
    if |rows| > 1 {
      var init := rows[..|rows| - 1];
      var head := if rows[0][2] == h then [rows[0][1]] else [];
      var last := if rows[|rows| - 1][2] == h then [rows[|rows| - 1][1]] else [];
      ChildrenOfSnoc(rows[1..], h);
      assert rows[1..][..|rows| - 2] == init[1..];
      assert ChildrenOf(init, h) == head + ChildrenOf(init[1..], h);
      assert head + ChildrenOf(init[1..], h) + last == head + (ChildrenOf(init[1..], h) + last);
    }
  }

  /** The children map agrees with the reference grouping: hosts are
      exactly the non-(-1) host values that occur, and each list holds
      that host's children in file order. */
  lemma {:induction false} CalculateChildrenIsGrouping(rows: seq<Row>)
    requires HostRows(rows)
    ensures NoHost !in CalculateChildren(rows)
    ensures forall h :: h in CalculateChildren(rows) <==> h != NoHost && ChildrenOf(rows, h) != []
    ensures forall h :: h in CalculateChildren(rows) ==> CalculateChildren(rows)[h] == ChildrenOf(rows, h)
  {
    if |rows| > 0 {
      var init := rows[..|rows| - 1];
      CalculateChildrenIsGrouping(init);
      forall h
        ensures ChildrenOf(rows, h) ==
                  ChildrenOf(init, h) + (if rows[|rows| - 1][2] == h then [rows[|rows| - 1][1]] else [])
      {
        ChildrenOfSnoc(rows, h);
      }
    }
  }

  /** `_child_halo_entry`: the children of a finder id, `[]` when it has
      none. */
  function ChildHaloEntry(m: ChildrenMap, id: Value): Value {
    List(if id in m then m[id] else [])
  }

  /** The `childHalo` value of a halo lists exactly the halos that name it
      as host, in file order; a halo nobody names gets `[]`. */
  lemma ChildHaloEntryIsChildren(rows: seq<Row>, id: Value)
    requires HostRows(rows)
    requires id != NoHost
    ensures ChildHaloEntry(CalculateChildren(rows), id) == List(ChildrenOf(rows, id))
  {
    CalculateChildrenIsGrouping(rows);
  }
}

=== FILE: errors.dfy ===
/** The exceptions the stat-file reader raises or catches. */
module Errors {
  datatype Error =
    | IndexError                      // a data line has fewer tokens than a requested column index
    | FileNotFound(path: string)      // `open` of a stat file that does not exist
    | NoStatFileFound(timestep: string) // the OSError raised when no reader can load a timestep
    | ValueError(reason: string)      // a stat-file path cannot be derived from the timestep name
}

=== FILE: filenames.dfy ===
/**
 * Which stat file each reader class looks for (`filename`) and whether
 * it can load a timestep (`can_load`). The file system is a map from
 * path to the file's lines; `glob` and the directory scan of Rockstar's
 * yt branch are parameters of the environment.
 */
module FileNames {
  import opened Wrappers
  import opened Text
  import opened Numerals
  import opened Errors
  import opened Cells
  import opened Paths

  /** The reader classes: HaloStatFile and its three subclasses. */
  datatype Kind = Base | AHF | Rockstar | AmigaIDL

  /** Everything the reader consults outside its own code: the files, the
      results of `glob.glob`, the path Rockstar's `RD`/`DD` branch derives
      from `datasets.txt` or a directory listing, and what a translation
      entry computes. `evaluate(kind, path, name, rawArgs, rawValues)` is
      the value of entry `name` of an instance of `kind` reading the stat
      file `path`: Rockstar's unit conversions use the cosmology
      `_get_cosmo` read from that instance's own file. */
  datatype Env = Env(
    files: map<string, seq<string>>,
    glob: string -> seq<string>,
    ytRockstarPath: string -> string,
    evaluate: (Kind, string, string, seq<string>, seq<Value>) -> Value)

  /** `_finder_offset_start`: the offset of the first data line. */
  function FinderOffsetStart(kind: Kind): int {
    if kind == AHF then 1 else 0
  }

  const AhfPattern: string := ".z*.???.AHF_halos"

  /** `AHFStatFile.filename`: the first match beside the timestep, else in
      its `halos` sub-folder, else a placeholder name. */
  function AhfFileName(env: Env, ts: string): (r: string)
    ensures |env.glob(ts + AhfPattern)| > 0 ==> r == env.glob(ts + AhfPattern)[0]
    ensures |env.glob(ts + AhfPattern)| == 0 && |env.glob(HalosSubfolderPath(ts) + AhfPattern)| > 0 ==>
              r == env.glob(HalosSubfolderPath(ts) + AhfPattern)[0]
    ensures |env.glob(ts + AhfPattern)| == 0 && |env.glob(HalosSubfolderPath(ts) + AhfPattern)| == 0 ==>
              r == "CannotFindAHFHaloFilename"
  {
    var found := env.glob(ts + AhfPattern) + env.glob(HalosSubfolderPath(ts) + AhfPattern);
    if |found| == 0 then "CannotFindAHFHaloFilename" else found[0]
  }

  const SnapshotPrefix: string := "snapshot_"

  /** `"out_%d.list" % n`. */
  function RockstarListName(n: int): string {
    "out_" + IntToString(n) + ".list"
  }

  /** `RockstarStatFile.filename`: `snapshot_<n>` maps to `out_<n>.list` in
      the same directory; a suffix `int()` rejects raises ValueError. */
  function RockstarFileName(env: Env, ts: string): (r: Result<string, Error>)
    ensures r.Failure? <==>
              StartsWith(Basename(ts), SnapshotPrefix) && IntOfString(Basename(ts)[|SnapshotPrefix|..]).None?
    ensures r.Failure? ==> r.error.ValueError?
    ensures !StartsWith(Basename(ts), SnapshotPrefix) && (StartsWith(Basename(ts), "RD") || StartsWith(Basename(ts), "DD"))
            ==> r == Success(env.ytRockstarPath(ts))
    ensures !StartsWith(Basename(ts), SnapshotPrefix) && !StartsWith(Basename(ts), "RD") && !StartsWith(Basename(ts), "DD")
            ==> r == Success("CannotComputeRockstarFilename")
  {
    var base := Basename(ts);
    var dir := Dirname(ts);
    if StartsWith(base, SnapshotPrefix) then
      match IntOfString(base[|SnapshotPrefix|..])
      case Some(id) => Success(PathJoin(dir, RockstarListName(id)))
      case None => Failure(ValueError("invalid literal for int()"))
    else if StartsWith(base, "RD") || StartsWith(base, "DD") then
      Success(env.ytRockstarPath(ts))
    else
      Success("CannotComputeRockstarFilename")
  }

  /** The `filename` class method of each reader. */
  function FileName(env: Env, kind: Kind, ts: string): (r: Result<string, Error>)
    ensures r.Failure? ==> r.error.ValueError?
    ensures kind == Base ==> r.Failure?
    ensures kind == AHF || kind == AmigaIDL ==> r.Success?
  {
    match kind
    case Base => Failure(ValueError("Unknown path to stat file"))
    case AHF => Success(AhfFileName(env, ts))
    case Rockstar => RockstarFileName(env, ts)
    case AmigaIDL => Success(ts + ".amiga.stat")
  }

  /** `can_load`: the derived path exists; a ValueError counts as no. */
  function CanLoad(env: Env, kind: Kind, ts: string): (b: bool)
    ensures b <==> FileName(env, kind, ts).Success? && FileName(env, kind, ts).value in env.files
    ensures FileName(env, kind, ts).Failure? ==> !b
  {
    match FileName(env, kind, ts)
    case Success(path) => path in env.files
    case Failure(_) => false
  }

  /** The base class can load nothing: its `filename` always raises. */
  lemma BaseNeverLoads(env: Env, ts: string)
    ensures FileName(env, Base, ts).Failure?
    ensures !CanLoad(env, Base, ts)
  {}

  /** Amiga IDL loads exactly when `<timestep>.amiga.stat` exists. */
  lemma AmigaLoadsIffStatFileExists(env: Env, ts: string)
    ensures CanLoad(env, AmigaIDL, ts) <==> ts + ".amiga.stat" in env.files
  {}

  /** A Rockstar `snapshot_<n>` timestep inside a directory maps to
      `out_<n>.list` in that directory, with `<n>` zero-padded or not, as
      long as `int()` accepts the digits. */
  lemma RockstarSnapshotPath(env: Env, dir: string, z: nat, n: nat)
    requires dir != [] && dir[|dir| - 1] != '/'
    requires z + DigitCount(n) <= MaxStrDigits
    ensures RockstarFileName(env, dir + "/" + (SnapshotPrefix + Zeros(z) + IntToString(n)))
            == Success(dir + "/" + RockstarListName(n))
  {
    var name := SnapshotPrefix + Zeros(z) + IntToString(n);
    var ts := dir + "/" + name;
    SnapshotNameParses(z, n);
    SplitDirectoryAndName(dir, name);
    RockstarFileNameOfSnapshot(env, ts, n);
    JoinListName(dir, n);
  }

  /** A bare `snapshot_<n>` timestep, without a directory, maps to
      `out_<n>.list`. */
  lemma RockstarBareSnapshotPath(env: Env, z: nat, n: nat)
    requires z + DigitCount(n) <= MaxStrDigits
    ensures RockstarFileName(env, SnapshotPrefix + Zeros(z) + IntToString(n)) == Success(RockstarListName(n))
  {
    var name := SnapshotPrefix + Zeros(z) + IntToString(n);
    SnapshotNameParses(z, n);
    RockstarFileNameOfSnapshot(env, name, n);
    assert Dirname(name) == [];
    JoinBareListName(n);
  }

  /** A `snapshot_<n>` timestep at the root, `/snapshot_<n>`, maps to
      `/out_<n>.list`: the directory part is `/` itself. */
  lemma RockstarRootSnapshotPath(env: Env, z: nat, n: nat)
    requires z + DigitCount(n) <= MaxStrDigits
    ensures RockstarFileName(env, "/" + (SnapshotPrefix + Zeros(z) + IntToString(n)))
            == Success("/" + RockstarListName(n))
  {
    var name := SnapshotPrefix + Zeros(z) + IntToString(n);
    SnapshotNameParses(z, n);
    SplitRootAndName(name);
    RockstarFileNameOfSnapshot(env, "/" + name, n);
    JoinRootListName(n);
  }

  /** `os.path.basename` and `os.path.dirname` of `/name`. */
  lemma SplitRootAndName(name: string)
    requires '/' !in name
    ensures Basename("/" + name) == name
    ensures Dirname("/" + name) == "/"
  {
    var ts := "/" + name;
    LastSlashEndUnique("/", name);
    assert ts[..1] == "/";
    assert AllSlashes("/");
  }

  lemma JoinRootListName(n: int)
    ensures PathJoin("/", RockstarListName(n)) == "/" + RockstarListName(n)
  {
    assert RockstarListName(n)[0] == 'o';
  }

  lemma JoinBareListName(n: int)
    ensures PathJoin([], RockstarListName(n)) == RockstarListName(n)
  {
    assert RockstarListName(n)[0] == 'o';
    assert [] + RockstarListName(n) == RockstarListName(n);
  }

  /** `snapshot_` then `z` zeros then the digits of `n` is a slash-free
      name whose suffix `int()` reads as `n`. */
  lemma SnapshotNameParses(z: nat, n: nat)
    requires z + DigitCount(n) <= MaxStrDigits
    ensures var name := SnapshotPrefix + Zeros(z) + IntToString(n);
            && '/' !in name
            && StartsWith(name, SnapshotPrefix)
            && IntOfString(name[|SnapshotPrefix|..]) == Some(n)
  {
    var suffix := Zeros(z) + IntToString(n);
    ParseIntPaddedNat(z, n);
    assert NoSpace(suffix);
    SnapshotPrefixSlice(suffix);
    SeqAssoc(SnapshotPrefix, Zeros(z), IntToString(n));
  }

  lemma SnapshotPrefixSlice(suffix: string)
    requires AllDigits(suffix)
    ensures var name := SnapshotPrefix + suffix;
            && '/' !in name
            && StartsWith(name, SnapshotPrefix)
            && name[|SnapshotPrefix|..] == suffix
  {
    var name := SnapshotPrefix + suffix;
    assert forall i :: |SnapshotPrefix| <= i < |name| ==> name[i] == suffix[i - |SnapshotPrefix|];
  }

  /** The snapshot branch of `filename` on a suffix `int()` reads as `n`. */
  lemma RockstarFileNameOfSnapshot(env: Env, ts: string, n: int)
    requires StartsWith(Basename(ts), SnapshotPrefix)
    requires IntOfString(Basename(ts)[|SnapshotPrefix|..]) == Some(n)
    ensures RockstarFileName(env, ts) == Success(PathJoin(Dirname(ts), RockstarListName(n)))
  {}

  lemma JoinListName(dir: string, n: int)
    requires dir != [] && dir[|dir| - 1] != '/'
    ensures PathJoin(dir, RockstarListName(n)) == dir + "/" + RockstarListName(n)
  {
    assert RockstarListName(n)[0] == 'o';
  }

  /** `os.path.basename` and `os.path.dirname` of `dir/name`. */
  lemma SplitDirectoryAndName(dir: string, name: string)
    requires dir != [] && dir[|dir| - 1] != '/'
    requires '/' !in name
    ensures Basename(dir + "/" + name) == name
    ensures Dirname(dir + "/" + name) == dir
  {
    var ts := dir + "/" + name;
    assert ts == (dir + "/") + name;
    LastSlashEndUnique(dir + "/", name);
    assert ts[..LastSlashEnd(ts)] == dir + "/";
    assert (dir + "/")[..|dir|] == dir;
    assert (dir + "/")[|dir| - 1] != '/';
    assert !AllSlashes(dir + "/");
    assert DropTrailingSlashes(dir + "/") == DropTrailingSlashes(dir);
  }

  /** An ASCII separator 0x1c-0x1f after `snapshot_` makes `int()` raise,
      so Rockstar cannot load the timestep even though `str.isspace`
      counts the character as whitespace. */
  lemma RockstarRejectsSeparatorInSnapshot(env: Env, ts: string, i: nat)
    requires StartsWith(Basename(ts), SnapshotPrefix)
    requires |SnapshotPrefix| <= i < |Basename(ts)| && 0x1c <= Basename(ts)[i] as int <= 0x1f
    ensures !CanLoad(env, Rockstar, ts)
  {
    var suffix := Basename(ts)[|SnapshotPrefix|..];
    assert suffix[i - |SnapshotPrefix|] == Basename(ts)[i];
    IntOfStringSeparatorFails(suffix, i - |SnapshotPrefix|);
    RockstarRejectsNonIntegerSnapshot(env, ts);
  }

  /** A Rockstar timestep whose suffix after `snapshot_` is not an
      integer has no stat file path, so Rockstar cannot load it. */
  lemma RockstarRejectsNonIntegerSnapshot(env: Env, ts: string)
    requires StartsWith(Basename(ts), SnapshotPrefix)
    requires IntOfString(Basename(ts)[|SnapshotPrefix|..]).None?
    ensures FileName(env, Rockstar, ts).Failure?
    ensures !CanLoad(env, Rockstar, ts)
  {
    assert FileName(env, Rockstar, ts) == RockstarFileName(env, ts);
  }
}

=== FILE: numerals.dfy ===
/**
 * What Python's `int(token)` and `float(token)` accept, for the ASCII
 * tokens a whitespace split produces, and the `%d` rendering of an
 * integer. Floating-point values themselves are not modelled: a token is
 * only classified as a valid float literal. `int()` follows CPython 3.11
 * and later (and the security releases of 3.7 to 3.10), which refuse a
 * decimal string of more than 4300 digits.
 */
module Numerals {
  import opened Wrappers
  import opened Text

  predicate IsDigit(c: char) {
    '0' <= c <= '9'
  }

  /** Python's `digitpart`: a digit, then digits each optionally preceded
      by a single underscore. */
  predicate DigitPart(s: string) {
    && |s| > 0
    && IsDigit(s[0])
    && IsDigit(s[|s| - 1])
    && (forall i :: 0 <= i < |s| ==> IsDigit(s[i]) || s[i] == '_')
    && (forall i :: 0 <= i < |s| - 1 ==> s[i] == '_' ==> s[i + 1] != '_')
  }

  predicate HasSign(s: string) {
    |s| > 0 && (s[0] == '+' || s[0] == '-')
  }

  function StripSign(s: string): (r: string)
    ensures |r| <= |s|
  {
    if HasSign(s) then s[1..] else s
  }

  function RemoveUnderscores(s: string): (r: string)
    ensures '_' !in r
  {
    if |s| == 0 then []
    else if s[0] == '_' then RemoveUnderscores(s[1..])
    else [s[0]] + RemoveUnderscores(s[1..])
  }

  function DigitValue(c: char): nat
    requires IsDigit(c)
  {
    (c as int) - ('0' as int)
  }

  predicate AllDigits(s: string) {
    forall i :: 0 <= i < |s| ==> IsDigit(s[i])
  }

  /** The value of a string of decimal digits, most significant first. */
  function DigitsValue(s: string): nat
    requires AllDigits(s)
  {
    if |s| == 0 then 0 else DigitsValue(s[..|s| - 1]) * 10 + DigitValue(s[|s| - 1])
  }

  lemma RemoveUnderscoresOfDigitPart(s: string)
    requires forall i :: 0 <= i < |s| ==> IsDigit(s[i]) || s[i] == '_'
    ensures AllDigits(RemoveUnderscores(s))
  {
    if |s| > 0 {
      RemoveUnderscoresOfDigitPart(s[1..]);
    }
  }

  /** `sys.int_info.default_max_str_digits`: `int()` of a decimal string
      with more digits (underscores and sign not counted) raises
      ValueError. */
  const MaxStrDigits: nat := 4300

  /** The token `int(token)` accepts: an optional sign and a digit part of
      at most `MaxStrDigits` digits. */
  predicate IsIntLiteral(s: string) {
    DigitPart(StripSign(s)) && |RemoveUnderscores(StripSign(s))| <= MaxStrDigits
  }

  /** Python's `int(token)`: `None` stands for the ValueError it raises. */
  function ParseInt(s: string): (r: Option<int>)
    ensures r.Some? <==> IsIntLiteral(s)
  {
    var body := StripSign(s);
    if DigitPart(body) && |RemoveUnderscores(body)| <= MaxStrDigits then
      RemoveUnderscoresOfDigitPart(body);
      var magnitude: int := DigitsValue(RemoveUnderscores(body));
      var value: int := if HasSign(s) && s[0] == '-' then -magnitude else magnitude;
      Some(value)
    else None
  }

  /** A mantissa: digits with an optional fractional part, at least one
      digit on one side of the point. */
  predicate IsMantissa(m: string) {
    var d := IndexOf(m, '.');
    if d == |m| then DigitPart(m)
    else
      var whole, fraction := m[..d], m[d + 1..];
      && (whole == [] || DigitPart(whole))
      && (fraction == [] || DigitPart(fraction))
      && (whole != [] || fraction != [])
  }

  predicate IsExponent(e: string) {
    DigitPart(StripSign(e))
  }

  function IndexOfExponentMark(s: string): (r: nat)
    ensures r <= |s|
    ensures r < |s| ==> s[r] == 'e' || s[r] == 'E'
    ensures forall j :: 0 <= j < r ==> s[j] != 'e' && s[j] != 'E'
  {
    if |s| == 0 || s[0] == 'e' || s[0] == 'E' then 0 else 1 + IndexOfExponentMark(s[1..])
  }

  /** An unsigned decimal float literal: mantissa and optional exponent. */
  predicate IsDecimalFloat(b: string) {
    var k := IndexOfExponentMark(b);
    IsMantissa(b[..k]) && (k == |b| || IsExponent(b[k + 1..]))
  }

  function LowerAscii(s: string): (r: string)
    ensures |r| == |s|
  {
    if |s| == 0 then []
    else [if 'A' <= s[0] <= 'Z' then (s[0] as int + 32) as char else s[0]] + LowerAscii(s[1..])
  }

  predicate IsInfOrNan(b: string) {
    var l := LowerAscii(b);
    l == "inf" || l == "infinity" || l == "nan"
  }

  /** The token `float(token)` accepts. */
  predicate IsFloatLiteral(s: string) {
    var body := StripSign(s);
    IsDecimalFloat(body) || IsInfOrNan(body)
  }

  function DigitChar(d: nat): (c: char)
    requires d < 10
    ensures IsDigit(c) && DigitValue(c) == d
  {
    ('0' as int + d) as char
  }

  /** The decimal digits of a natural number, no leading zeros. */
  function NatDigits(n: nat): (r: string)
    ensures |r| > 0 && AllDigits(r)
    ensures r[0] == '0' <==> n == 0
    decreases n
  {
    if n < 10 then [DigitChar(n)] else NatDigits(n / 10) + [DigitChar(n % 10)]
  }

  /** The number of decimal digits of `n`, sign not counted. */
  function DigitCount(n: int): nat {
    |NatDigits(if n < 0 then -n else n)|
  }

  /** Python's `"%d" % n`: a minus sign for a negative number, then the
      digits of its magnitude without leading zeros. */
  function IntToString(n: int): (r: string)
    ensures HasSign(r) <==> n < 0
    ensures HasSign(r) ==> r[0] == '-'
    ensures |StripSign(r)| == DigitCount(n) && AllDigits(StripSign(r))
    ensures StripSign(r)[0] == '0' ==> r == "0"
  {
    if n < 0 then
      var r := "-" + NatDigits(-n);
      assert StripSign(r) == NatDigits(-n);
      r
    else NatDigits(n)
  }

  lemma {:induction false} NatDigitsValue(n: nat)
    ensures DigitsValue(NatDigits(n)) == n
    decreases n
  {
    if n >= 10 {
      var s := NatDigits(n);
      assert s[..|s| - 1] == NatDigits(n / 10);
      NatDigitsValue(n / 10);
    }
  }

  lemma NoUnderscoreRemoved(s: string)
    requires AllDigits(s)
    ensures RemoveUnderscores(s) == s
  {
    if |s| > 0 {
      NoUnderscoreRemoved(s[1..]);
    }
  }

  /** `%d` produces no point and no exponent mark, so the reader guesses
      `int` for it; within the digit limit `int()` accepts it. */
  lemma IntToStringShape(n: int)
    requires DigitCount(n) <= MaxStrDigits
    ensures '.' !in IntToString(n) && 'e' !in IntToString(n)
    ensures IsIntLiteral(IntToString(n))
  {
    var s := IntToString(n);
    var digits := NatDigits(if n < 0 then -n else n);
    assert StripSign(s) == digits;
    assert forall i :: 0 <= i < |s| ==> s[i] == '-' || IsDigit(s[i]);
    NoUnderscoreRemoved(digits);
  }

  /** `int("%d" % n) == n` for every integer `int()` may read. */
  lemma ParseIntToString(n: int)
    requires DigitCount(n) <= MaxStrDigits
    ensures ParseInt(IntToString(n)) == Some(n)
  {
    var digits := NatDigits(if n < 0 then -n else n);
    assert StripSign(IntToString(n)) == digits;
    IntToStringShape(n);
    NoUnderscoreRemoved(digits);
    NatDigitsValue(if n < 0 then -n else n);
  }

  /** The whitespace `int()` ignores around its argument: the ASCII space
      and `\t\n\v\f\r`, and every non-ASCII character `str.isspace`
      accepts (CPython turns those into spaces first). The separators
      0x1c-0x1f are whitespace to `str.isspace` but not to `int()`, which
      raises on them. */
  predicate IntSpace(c: char) {
    IsSpace(c) && !(0x1c <= c as int <= 0x1f)
  }

  predicate AllIntSpace(s: string) {
    forall i :: 0 <= i < |s| ==> IntSpace(s[i])
  }

  /** The input without its leading `int()` whitespace. */
  function DropIntSpace(s: string): (r: string)
    ensures |r| <= |s| && r == s[|s| - |r|..]
    ensures r == [] || !IntSpace(r[0])
    ensures forall i :: 0 <= i < |s| - |r| ==> IntSpace(s[i])
  {
    if |s| > 0 && IntSpace(s[0]) then DropIntSpace(s[1..]) else s
  }

  /** The input without its trailing `int()` whitespace. */
  function DropTrailingIntSpace(s: string): (r: string)
    ensures |r| <= |s| && r == s[..|r|]
    ensures r == [] || !IntSpace(r[|r| - 1])
    ensures forall i :: |r| <= i < |s| ==> IntSpace(s[i])
  {
    if |s| > 0 && IntSpace(s[|s| - 1]) then DropTrailingIntSpace(s[..|s| - 1]) else s
  }

  /** Python's `int(s)` on an arbitrary string: surrounding `int()`
      whitespace is ignored, and `None` stands for the ValueError. */
  function IntOfString(s: string): (r: Option<int>)
    ensures NoSpace(s) ==> r == ParseInt(s)
  {
    ParseInt(DropTrailingIntSpace(DropIntSpace(s)))
  }

  lemma DropIntSpacePrefix(pre: string, u: string)
    requires AllIntSpace(pre)
    requires u == [] || !IntSpace(u[0])
    ensures DropIntSpace(pre + u) == u
    decreases |pre|
  {
    if |pre| > 0 {
      assert (pre + u)[1..] == pre[1..] + u;
      DropIntSpacePrefix(pre[1..], u);
    }
  }

  lemma DropTrailingIntSpaceSuffix(t: string, post: string)
    requires AllIntSpace(post)
    requires t == [] || !IntSpace(t[|t| - 1])
    ensures DropTrailingIntSpace(t + post) == t
    decreases |post|
  {
    var s := t + post;
    if |post| == 0 {
      assert s == t;
    } else {
      var shorter := post[..|post| - 1];
      assert s[|s| - 1] == post[|post| - 1];
      assert s[..|s| - 1] == t + shorter;
      DropTrailingIntSpaceSuffix(t, shorter);
    }
  }

  /** `int()` ignores any run of its whitespace before and after the
      literal: every string is such a literal (possibly empty) between
      two such runs, so this determines `IntOfString` everywhere. */
  lemma {:induction false} IntOfStringSurroundingSpace(pre: string, t: string, post: string)
    requires AllIntSpace(pre) && AllIntSpace(post)
    requires t == [] || (!IntSpace(t[0]) && !IntSpace(t[|t| - 1]))
    ensures IntOfString(pre + t + post) == ParseInt(t)
  {
    if t == [] {
      assert pre + t + post == (pre + post) + [];
      DropIntSpacePrefix(pre + post, []);
    } else {
      assert pre + t + post == pre + (t + post);
      DropIntSpacePrefix(pre, t + post);
      DropTrailingIntSpaceSuffix(t, post);
    }
  }

  /** Every character of a literal `int()` accepts is a digit, an
      underscore or a sign. */
  lemma IntLiteralChars(t: string, k: nat)
    requires IsIntLiteral(t) && k < |t|
    ensures IsDigit(t[k]) || t[k] == '_' || t[k] == '+' || t[k] == '-'
  {
    if HasSign(t) && k > 0 {
      assert t[k] == StripSign(t)[k - 1];
    }
  }

  /** An ASCII separator 0x1c-0x1f anywhere in the argument makes `int()`
      raise ValueError, although `str.isspace` calls it whitespace. */
  lemma {:induction false} IntOfStringSeparatorFails(s: string, i: nat)
    requires i < |s| && 0x1c <= s[i] as int <= 0x1f
    ensures IntOfString(s) == None
  {
    var r := DropIntSpace(s);
    var q := DropTrailingIntSpace(r);
    var j := i - (|s| - |r|);
    assert 0 <= j < |q| && q[j] == s[i];
    if IsIntLiteral(q) {
      IntLiteralChars(q, j);
    }
  }

  /** `z` zero digits. */
  function Zeros(z: nat): (r: string)
    ensures |r| == z && AllDigits(r)
    ensures forall i :: 0 <= i < z ==> r[i] == '0'
  {
    if z == 0 then [] else "0" + Zeros(z - 1)
  }

  lemma {:induction false} RemoveUnderscoresAppend(a: string, b: string)
    ensures RemoveUnderscores(a + b) == RemoveUnderscores(a) + RemoveUnderscores(b)
    decreases |a|
  {
    if |a| == 0 {
      assert a + b == b;
    } else {
      assert (a + b)[0] == a[0] && (a + b)[1..] == a[1..] + b;
      RemoveUnderscoresAppend(a[1..], b);
    }
  }

  lemma {:induction false} DigitsValueOfZeros(z: nat)
    ensures DigitsValue(Zeros(z)) == 0
    decreases z
  {
    if z > 0 {
      var s := Zeros(z);
      assert s[..z - 1] == Zeros(z - 1);
      DigitsValueOfZeros(z - 1);
    }
  }

  /** Leading zeros do not change the value of a digit string. */
  lemma {:induction false} DigitsValueZerosPrefix(z: nat, d: string)
    requires AllDigits(d)
    ensures AllDigits(Zeros(z) + d)
    ensures DigitsValue(Zeros(z) + d) == DigitsValue(d)
    decreases |d|
  {
    var s := Zeros(z) + d;
    assert AllDigits(s) by {
      forall i | 0 <= i < |s| ensures IsDigit(s[i]) {
        if i >= z { assert s[i] == d[i - z]; }
      }
    }
    if |d| == 0 {
      assert s == Zeros(z);
      DigitsValueOfZeros(z);
    } else {
      var d' := d[..|d| - 1];
      assert s[..|s| - 1] == Zeros(z) + d';
      assert s[|s| - 1] == d[|d| - 1];
      DigitsValueZerosPrefix(z, d');
    }
  }

  /** Two digit parts joined directly or by one underscore form a digit
      part. */
  lemma DigitPartJoin(a: string, sep: string, b: string)
    requires DigitPart(a) && DigitPart(b)
    requires sep == "" || sep == "_"
    ensures DigitPart(a + sep + b)
  {
    var s := a + sep + b;
    var k := |a| + |sep|;
    assert forall i :: 0 <= i < |a| ==> s[i] == a[i];
    assert forall i :: k <= i < |s| ==> s[i] == b[i - k];
    forall i | 0 <= i < |s| - 1
      ensures s[i] == '_' ==> s[i + 1] != '_'
    {
      if i < |a| - 1 {
        assert s[i] == a[i] && s[i + 1] == a[i + 1];
      } else if i == |a| - 1 {
        assert s[i] == a[|a| - 1];
      } else if i < k {
        assert s[i + 1] == b[0];
      } else {
        assert s[i] == b[i - k] && s[i + 1] == b[i + 1 - k];
      }
    }
  }

  /** `int()` of an unsigned digit part within the limit is the value of
      its digits. */
  lemma ParseIntUnsigned(s: string)
    requires DigitPart(s) && |RemoveUnderscores(s)| <= MaxStrDigits
    ensures AllDigits(RemoveUnderscores(s))
    ensures ParseInt(s) == Some(DigitsValue(RemoveUnderscores(s)))
  {
    assert !HasSign(s);
    RemoveUnderscoresOfDigitPart(s);
  }

  /** Leading zeros do not change what `int()` reads, as long as the
      digits, zeros included, stay within the limit. */
  lemma ParseIntLeadingZeros(z: nat, d: string)
    requires DigitPart(d)
    requires z + |RemoveUnderscores(d)| <= MaxStrDigits
    ensures ParseInt(Zeros(z) + d) == ParseInt(d)
  {
    ZerosPrefixDigitPart(z, d);
    ParseIntUnsigned(Zeros(z) + d);
    ParseIntUnsigned(d);
    DigitsValueZerosPrefix(z, RemoveUnderscores(d));
  }

  lemma ZerosPrefixDigitPart(z: nat, d: string)
    requires DigitPart(d)
    ensures DigitPart(Zeros(z) + d)
    ensures RemoveUnderscores(Zeros(z) + d) == Zeros(z) + RemoveUnderscores(d)
  {
    if z > 0 {
      ZerosSnoc(z);
      DigitPartZeros(z - 1);
      DigitPartJoin(Zeros(z - 1) + "0", "", d);
      assert Zeros(z - 1) + "0" + "" + d == Zeros(z) + d;
    } else {
      assert Zeros(z) + d == d;
    }
    RemoveUnderscoresAppend(Zeros(z), d);
    NoUnderscoreRemoved(Zeros(z));
  }

  lemma {:induction false} ZerosSnoc(z: nat)
    requires z > 0
    ensures Zeros(z) == Zeros(z - 1) + "0"
    decreases z
  {
    if z > 1 {
      ZerosSnoc(z - 1);
      assert Zeros(z) == "0" + (Zeros(z - 2) + "0");
    }
  }

  lemma DigitPartZeros(z: nat)
    ensures DigitPart(Zeros(z) + "0")
  {
    var s := Zeros(z) + "0";
    assert forall i :: 0 <= i < |s| ==> s[i] == '0';
  }

  /** A leading `+` changes nothing and a leading `-` negates. */
  lemma ParseIntSigned(d: string)
    requires !HasSign(d)
    ensures ParseInt("+" + d) == ParseInt(d)
    ensures ParseInt("-" + d) == if ParseInt(d).Some? then Some(-ParseInt(d).value) else Option.None
  {
    assert StripSign("+" + d) == d;
    assert StripSign("-" + d) == d;
    assert StripSign(d) == d;
  }

  /** An underscore between two digit parts is ignored. */
  lemma ParseIntUnderscore(a: string, b: string)
    requires DigitPart(a) && DigitPart(b)
    ensures ParseInt(a + "_" + b) == ParseInt(a + b)
  {
    DigitPartJoin(a, "_", b);
    DigitPartJoin(a, "", b);
    assert a + "" + b == a + b;
    RemoveUnderscoresAppend(a + "_", b);
    RemoveUnderscoresAppend(a, "_");
    RemoveUnderscoresAppend(a, b);
    assert RemoveUnderscores("_") == [];
    assert RemoveUnderscores(a + "_" + b) == RemoveUnderscores(a + b);
    if |RemoveUnderscores(a + b)| <= MaxStrDigits {
      ParseIntUnsigned(a + "_" + b);
      ParseIntUnsigned(a + b);
    } else {
      assert !HasSign(a + "_" + b) && !HasSign(a + b);
    }
  }

  /** A non-empty string of digits is a digit part. */
  lemma DigitPartOfDigits(d: string)
    requires |d| > 0 && AllDigits(d)
    ensures DigitPart(d)
  {}

  /** A string of more than `MaxStrDigits` digits is refused, whatever
      its value. */
  lemma ParseIntTooManyDigits(d: string)
    requires |d| > MaxStrDigits && AllDigits(d)
    ensures ParseInt(d).None?
  {
    assert !HasSign(d);
    NoUnderscoreRemoved(d);
  }

  /** A natural number written with `z` extra leading zeros is still
      read back as itself. */
  lemma ParseIntPaddedNat(z: nat, n: nat)
    requires z + DigitCount(n) <= MaxStrDigits
    ensures AllDigits(Zeros(z) + IntToString(n))
    ensures ParseInt(Zeros(z) + IntToString(n)) == Some(n)
  {
    var d := IntToString(n);
    assert StripSign(d) == d;
    DigitsValueZerosPrefix(z, d);
    DigitPartOfDigits(d);
    NoUnderscoreRemoved(d);
    ParseIntLeadingZeros(z, d);
    ParseIntToString(n);
  }
}

=== FILE: paths.dfy ===
/**
 * POSIX path handling as Python's `os.path` does it (`basename`,
 * `dirname`, `join`) and the "halos" sub-folder variant of a timestep
 * path that the AHF reader also searches.
 */
module Paths {
  import opened Text

  /** The length of the prefix up to and including the last '/'. */
  function LastSlashEnd(p: string): (r: nat)
    ensures r <= |p|
    ensures '/' !in p[r..]
    ensures forall j :: r <= j < |p| ==> p[j] != '/'
    ensures r > 0 ==> p[r - 1] == '/'
    ensures r == 0 <==> '/' !in p
  {
    if |p| == 0 then 0
    else if p[|p| - 1] == '/' then |p|
    else
      var r := LastSlashEnd(p[..|p| - 1]);
      assert p[r..] == p[..|p| - 1][r..] + [p[|p| - 1]];
      r
  }

  /** Any split of a path into a directory part ending in '/' (or empty)
      and a slash-free rest is the one `LastSlashEnd` finds. */
  lemma LastSlashEndUnique(dir: string, name: string)
    requires dir == [] || dir[|dir| - 1] == '/'
    requires '/' !in name
    ensures LastSlashEnd(dir + name) == |dir|
  {
    var p := dir + name;
    assert forall j :: |dir| <= j < |p| ==> p[j] == name[j - |dir|];
    assert dir != [] ==> p[|dir| - 1] == '/';
  }

  /** `os.path.basename`: the part after the last '/', all of `p` when it
      has none. */
  function Basename(p: string): (r: string)
    ensures '/' !in r
    ensures |r| <= |p| && r == p[|p| - |r|..]
    ensures |r| < |p| ==> p[|p| - |r| - 1] == '/'
  {
    p[LastSlashEnd(p)..]
  }

  predicate AllSlashes(s: string) {
    forall i :: 0 <= i < |s| ==> s[i] == '/'
  }

  function DropTrailingSlashes(s: string): (r: string)
    ensures |r| <= |s| && r == s[..|r|]
    ensures r == [] || r[|r| - 1] != '/'
    ensures forall j :: |r| <= j < |s| ==> s[j] == '/'
  {
    if |s| > 0 && s[|s| - 1] == '/' then DropTrailingSlashes(s[..|s| - 1]) else s
  }

  /** `os.path.dirname`: the part before the last '/', with trailing
      slashes removed unless it consists of slashes only. */
  function Dirname(p: string): (r: string)
    ensures |r| <= LastSlashEnd(p) && r == p[..|r|]
    ensures r == [] <==> '/' !in p
    ensures forall j :: |r| <= j < LastSlashEnd(p) ==> p[j] == '/'
    ensures r != [] && r[|r| - 1] == '/' ==> AllSlashes(r) && |r| == LastSlashEnd(p)
  {
    var head := p[..LastSlashEnd(p)];
    if head != [] && !AllSlashes(head) then DropTrailingSlashes(head) else head
  }

  /** `os.path.join(a, b)`. */
  function PathJoin(a: string, b: string): (r: string)
    ensures |b| > 0 && b[0] == '/' ==> r == b
    ensures (|b| == 0 || b[0] != '/') && (a == [] || a[|a| - 1] == '/') ==> r == a + b
    ensures (|b| == 0 || b[0] != '/') && a != [] && a[|a| - 1] != '/' ==> r == a + "/" + b
  {
    if |b| > 0 && b[0] == '/' then b
    else if a == [] || a[|a| - 1] == '/' then a + b
    else a + "/" + b
  }

  /** `"/".join(parts[:-1] + ["halos"] + parts[-1:])` with
      `parts = p.split("/")`. */
  function HalosSubfolderPath(p: string): string {
    var parts := SplitOn(p, '/');
    JoinWith(parts[..|parts| - 1] + ["halos"] + parts[|parts| - 1..], "/")
  }

  lemma JoinWithSnoc(xs: seq<string>, y: string, sep: string)
    requires |xs| > 0
    ensures JoinWith(xs + [y], sep) == JoinWith(xs, sep) + sep + y
  {
    if |xs| == 1 {
      assert (xs + [y])[1..] == [y];
    } else {
      assert (xs + [y])[1..] == xs[1..] + [y];
      JoinWithSnoc(xs[1..], y, sep);
    }
  }

  lemma HalosOfPlainName(p: string)
    requires '/' !in p
    ensures HalosSubfolderPath(p) == "halos/" + p
  {
    SplitOnWithoutSeparator(p, '/');
    var parts := SplitOn(p, '/');
    assert parts[..0] + ["halos"] + parts[0..] == ["halos", p];
    JoinWithPair("halos", p, "/");
    assert "halos" + "/" == "halos/";
  }

  lemma SplitOnWithoutSeparator(s: string, sep: char)
    requires sep !in s
    ensures SplitOn(s, sep) == [s]
  {
    assert IndexOf(s, sep) == |s|;
  }

  lemma JoinWithPair(a: string, b: string, sep: string)
    ensures JoinWith([a, b], sep) == a + sep + b
  {
    assert [a, b][1..] == [b];
  }

  /** Appending "halos", "/" and `y` is appending "halos/" and `y`. */
  lemma HalosSlash(x: string, y: string)
    ensures x + "halos" + "/" + y == x + "halos/" + y
  {
    assert x + "halos" + "/" + y == x + ("halos" + "/") + y;
  }

  lemma HalosOfSplitPath(init: seq<string>, last: string)
    requires |init| > 0
    ensures JoinWith(init + ["halos"] + [last], "/") == JoinWith(init, "/") + "/" + "halos/" + last
  {
    JoinWithSnoc(init + ["halos"], last, "/");
    JoinWithSnoc(init, "halos", "/");
    HalosSlash(JoinWith(init, "/") + "/", last);
  }

  /** The "halos" variant puts a `halos` directory between the directory
      part of the path and its file name. */
  lemma {:induction false} HalosSubfolderInsertsDirectory(p: string)
    ensures HalosSubfolderPath(p) == p[..LastSlashEnd(p)] + "halos/" + Basename(p)
  {
    var parts := SplitOn(p, '/');
    var n := |parts|;
    if '/' !in p {
      HalosOfPlainName(p);
      LastSlashEndUnique([], p);
      assert [] + p == p;
    } else {
      assert n > 1;
      var last := parts[n - 1];
      var init := parts[..n - 1];
      assert parts == init + [last];
      JoinSplitOn(p, '/');
      JoinWithSnoc(init, last, "/");
      var dir := JoinWith(init, "/") + "/";
      assert p == dir + last;
      LastSlashEndUnique(dir, last);
      assert parts[..n - 1] + ["halos"] + parts[n - 1..] == init + ["halos"] + [last];
      HalosOfSplitPath(init, last);
    }
  }
}

=== FILE: selection.dfy ===
/**
 * Choosing the reader class for a timestep. Constructing a reader
 * (`HaloStatFile(timestep)`) searches the class tree depth first, the
 * class itself before its subclasses and the subclasses in declaration
 * order, for the first class whose `can_load` holds, and initialises an
 * instance of that class.
 */
module Selection {
  import opened Wrappers
  import opened Text
  import opened Errors
  import opened FileNames
  import opened StatFiles

  /** A reader class and its direct subclasses, in declaration order. */
  datatype ClassNode = ClassNode(kind: Kind, subclasses: seq<ClassNode>)

  /** `HaloStatFile` and the three subclasses declared after it. */
  const StatFileClasses: ClassNode :=
    ClassNode(Base, [ClassNode(AHF, []), ClassNode(Rockstar, []), ClassNode(AmigaIDL, [])])

  /** The classes of a tree in the order the search visits them. */
  function Preorder(node: ClassNode): seq<Kind>
    decreases node, 1
  {
    [node.kind] + PreorderAll(node.subclasses)
  }

  function PreorderAll(nodes: seq<ClassNode>): seq<Kind>
    decreases nodes, 0
  {
    if |nodes| == 0 then [] else Preorder(nodes[0]) + PreorderAll(nodes[1..])
  }

  /** The first class of `ks` that can load the timestep: no class before
      it can. */
  function FirstLoadableOf(env: Env, ks: seq<Kind>, ts: string): (r: Option<Kind>)
    ensures r.Some? ==> r.value in ks && CanLoad(env, r.value, ts)
    ensures r.Some? ==> forall j :: 0 <= j < IndexOf(ks, r.value) ==> !CanLoad(env, ks[j], ts)
    ensures r.None? <==> forall i :: 0 <= i < |ks| ==> !CanLoad(env, ks[i], ts)
  {
    if |ks| == 0 then Option.None
    else if CanLoad(env, ks[0], ts) then Some(ks[0])
    else FirstLoadableOf(env, ks[1..], ts)
  }

  /** `find_loadable_subclass`: the class itself when it can load the
      timestep, else the first subclass tree that yields one. */
  function FindLoadableSubclass(env: Env, node: ClassNode, ts: string): (r: Option<Kind>)
    ensures r.Some? ==> r.value in Preorder(node) && CanLoad(env, r.value, ts)
    ensures r.None? ==> forall k :: k in Preorder(node) ==> !CanLoad(env, k, ts)
    decreases node, 1
  {
    if CanLoad(env, node.kind, ts) then Some(node.kind)
    else FindLoadableAmong(env, node.subclasses, ts)
  }

  /** The loop over `__subclasses__()`: the first subclass tree whose
      search succeeds. */
  function FindLoadableAmong(env: Env, nodes: seq<ClassNode>, ts: string): (r: Option<Kind>)
    ensures r.Some? ==> r.value in PreorderAll(nodes) && CanLoad(env, r.value, ts)
    ensures r.None? ==> forall k :: k in PreorderAll(nodes) ==> !CanLoad(env, k, ts)
    decreases nodes, 0
  {
    if |nodes| == 0 then Option.None
    else
      match FindLoadableSubclass(env, nodes[0], ts)
      case Some(k) => Some(k)
      case None => FindLoadableAmong(env, nodes[1..], ts)
  }

  lemma {:induction false} FirstLoadableOfAppend(env: Env, a: seq<Kind>, b: seq<Kind>, ts: string)
    ensures FirstLoadableOf(env, a + b, ts)
            == if FirstLoadableOf(env, a, ts).Some? then FirstLoadableOf(env, a, ts) else FirstLoadableOf(env, b, ts)
    decreases |a|
  {
    if |a| > 0 {
      assert (a + b)[0] == a[0];
      assert (a + b)[1..] == a[1..] + b;
      FirstLoadableOfAppend(env, a[1..], b, ts);
    } else {
      assert a + b == b;
    }
  }

  /** The depth-first search returns the first loadable class in visiting
      order. */
  lemma {:induction false} FindIsFirstInPreorder(env: Env, node: ClassNode, ts: string)
    ensures FindLoadableSubclass(env, node, ts) == FirstLoadableOf(env, Preorder(node), ts)
    decreases node, 1
  {
    var ks := Preorder(node);
    assert ks[0] == node.kind && ks[1..] == PreorderAll(node.subclasses);
    FindAmongIsFirstInPreorder(env, node.subclasses, ts);
  }

  lemma {:induction false} FindAmongIsFirstInPreorder(env: Env, nodes: seq<ClassNode>, ts: string)
    ensures FindLoadableAmong(env, nodes, ts) == FirstLoadableOf(env, PreorderAll(nodes), ts)
    decreases nodes, 0
  {
    if |nodes| > 0 {
      FindIsFirstInPreorder(env, nodes[0], ts);
      FindAmongIsFirstInPreorder(env, nodes[1..], ts);
      FirstLoadableOfAppend(env, Preorder(nodes[0]), PreorderAll(nodes[1..]), ts);
    }
  }

  /** `HaloStatFile.__new__` followed by `__init__`: OSError when no class
      of the tree can load the timestep, else an initialised instance of
      the class found. */
  function Open(env: Env, root: ClassNode, ts: string): (r: Result<StatFile, Error>)
    ensures r.Failure? <==> FindLoadableSubclass(env, root, ts).None?
    ensures r.Failure? ==> r.error == NoStatFileFound(ts)
    ensures r.Success? ==>
              && FindLoadableSubclass(env, root, ts) == Some(r.value.kind)
              && FileName(env, r.value.kind, ts) == Success(r.value.filename)
              && r.value.filename in env.files
  {
    match FindLoadableSubclass(env, root, ts)
    case None => Failure(NoStatFileFound(ts))
    case Some(k) =>
      LoadableInitSucceeds(env, k, ts);
      Init(env, k, ts)
  }

  /** Opening fails exactly when no class of the tree can load the
      timestep, and then with the "no stat file" error; otherwise the
      instance belongs to the first loadable class in visiting order and
      reads the file that class names. */
  lemma OpenFailsIffNothingLoads(env: Env, root: ClassNode, ts: string)
    ensures Open(env, root, ts).Failure? <==> forall k :: k in Preorder(root) ==> !CanLoad(env, k, ts)
    ensures Open(env, root, ts).Failure? ==> Open(env, root, ts).error == NoStatFileFound(ts)
    ensures Open(env, root, ts).Success? ==>
              && Some(Open(env, root, ts).value.kind) == FirstLoadableOf(env, Preorder(root), ts)
              && FileName(env, Open(env, root, ts).value.kind, ts) == Success(Open(env, root, ts).value.filename)
              && Open(env, root, ts).value.filename in env.files
  {
    FindIsFirstInPreorder(env, root, ts);
    match FindLoadableSubclass(env, root, ts)
    case None =>
    case Some(k) =>
      assert CanLoad(env, k, ts);
      assert FileName(env, k, ts).Success?;
  }

  lemma PreorderOfStatFileClasses()
    ensures Preorder(StatFileClasses) == [Base, AHF, Rockstar, AmigaIDL]
  {
    var leaves := StatFileClasses.subclasses;
    assert PreorderAll(leaves[2..]) == [AmigaIDL] by {
      assert leaves[2..][1..] == [];
    }
    assert PreorderAll(leaves[1..]) == [Rockstar, AmigaIDL] by {
      assert leaves[1..][1..] == leaves[2..];
    }
  }

  /** For the reader classes of this package the search order is AHF, then
      Rockstar, then Amiga IDL; the base class never loads anything. */
  lemma StatFileClassPreference(env: Env, ts: string)
    ensures FindLoadableSubclass(env, StatFileClasses, ts)
            == if CanLoad(env, AHF, ts) then Some(AHF)
               else if CanLoad(env, Rockstar, ts) then Some(Rockstar)
               else if CanLoad(env, AmigaIDL, ts) then Some(AmigaIDL)
               else Option.None
  {
    FindIsFirstInPreorder(env, StatFileClasses, ts);
    PreorderOfStatFileClasses();
    BaseNeverLoads(env, ts);
    var ks: seq<Kind> := [Base, AHF, Rockstar, AmigaIDL];
    assert ks[1..] == [AHF, Rockstar, AmigaIDL];
    assert ks[1..][1..] == [Rockstar, AmigaIDL];
    assert ks[1..][1..][1..] == [AmigaIDL];
  }

  /** A class whose `can_load` holds initialises without error, on the
      file it checked. */
  lemma LoadableInitSucceeds(env: Env, kind: Kind, ts: string)
    requires CanLoad(env, kind, ts)
    ensures Init(env, kind, ts).Success?
    ensures Init(env, kind, ts).value.kind == kind
    ensures Init(env, kind, ts).value.filename in env.files
  {
    assert FileName(env, kind, ts).Success? && FileName(env, kind, ts).value in env.files;
  }
}

=== FILE: statfile.dfy ===
/**
 * A stat-file reader instance and its row iteration: `__init__`,
 * `iter_rows_raw`, `iter_rows`, `read` and `all_columns` of HaloStatFile
 * and its subclasses.
 *
 * A Python generator that yields some rows and then raises is modelled
 * as a `RowStream`: the rows yielded, then the exception if one ended
 * the iteration.
 */
module StatFiles {
  import opened Wrappers
  import opened Text
  import opened Errors
  import opened Cells
  import opened Translations
  import opened AhfChildren
  import opened FileNames

  datatype RowStream = RowStream(rows: seq<Row>, failure: Option<Error>)

  /** A reader instance. `children` is AHF's `_children_map`, absent until
      the first `childHalo` lookup computes it. */
  datatype StatFile = StatFile(
    kind: Kind,
    timestep: string,
    filename: string,
    translations: Table,
    children: Option<ChildrenMap>)

  /** `__init__` of the reader class chosen for a timestep: the instance
      records the path `filename` gives and installs its class's
      translation table. */
  function Init(env: Env, kind: Kind, ts: string): (r: Result<StatFile, Error>)
    ensures r.Success? ==> FileName(env, kind, ts) == Success(r.value.filename)
    ensures r.Success? ==> r.value.kind == kind && r.value.timestep == ts && r.value.children.None?
    ensures r.Failure? <==>
              FileName(env, kind, ts).Failure?
              || (kind == Rockstar && FileName(env, kind, ts).value !in env.files)
    ensures r.Success? && kind == Base ==> r.value.translations == []
    ensures r.Success? && kind == AHF ==>
              && r.value.translations == Put(AhfTable, "childHalo", ChildHalo)
              && HasKey(r.value.translations, "childHalo")
              && Get(r.value.translations, "childHalo") == ChildHalo
    ensures r.Success? && kind == Rockstar ==> r.value.translations == RockstarTable
    ensures r.Success? && kind == AmigaIDL ==> r.value.translations == AmigaTable
  {
    match FileName(env, kind, ts)
    case Failure(e) => Failure(e)
    case Success(path) =>
      match kind
      case Base => Success(StatFile(kind, ts, path, [], Option.None))
      case AHF => Success(StatFile(kind, ts, path, AhfInstanceTable, Option.None))
      // `_get_cosmo` opens the file while the instance is built
      case Rockstar =>
        if path in env.files then Success(StatFile(kind, ts, path, RockstarTable, Option.None))
        else Failure(FileNotFound(path))
      case AmigaIDL => Success(StatFile(kind, ts, path, AmigaTable, Option.None))
  }

  /** The column names `_read_column_names` reads from the first line; an
      empty file has none. */
  function Header(lines: seq<string>): seq<string> {
    if |lines| == 0 then [] else ColumnNames(lines[0])
  }

  /** The lines after the header. */
  function Body(lines: seq<string>): seq<string> {
    if |lines| == 0 then [] else lines[1..]
  }

  predicate IsComment(line: string) {
    StartsWith(line, "#")
  }

  /** The lines that become rows: every non-comment line, in order. */
  function DataLines(lines: seq<string>): (data: seq<string>)
    ensures |data| <= |lines|
    ensures forall i :: 0 <= i < |data| ==> !IsComment(data[i])
  {
    if |lines| == 0 then []
    else if IsComment(lines[0]) then DataLines(lines[1..])
    else [lines[0]] + DataLines(lines[1..])
  }

  /** The data lines of two stretches of lines are those of the first
      followed by those of the second. */
  lemma {:induction false} DataLinesAppend(a: seq<string>, b: seq<string>)
    ensures DataLines(a + b) == DataLines(a) + DataLines(b)
    decreases |a|
  {
    if |a| == 0 {
      assert a + b == b;
    } else {
      assert (a + b)[0] == a[0] && (a + b)[1..] == a[1..] + b;
      DataLinesAppend(a[1..], b);
    }
  }

  /** A single line is a data line exactly when it is not a comment. With
      `DataLinesAppend` this determines `DataLines`: every non-comment
      line is kept, in order. */
  lemma DataLinesOfLine(line: string)
    ensures DataLines([line]) == if IsComment(line) then [] else [line]
  {
    assert [line][1..] == [];
  }

  /** The loop of `iter_rows_raw` from counter value `next` on: comment
      lines are skipped without advancing the counter, every other line
      yields the counter followed by its values, and a line too short for
      the requested columns ends the iteration with an IndexError. */
  function RawRows(ids: seq<Option<nat>>, lines: seq<string>, next: int): (r: RowStream)
    ensures |r.rows| <= |DataLines(lines)|
    ensures r.failure.None? <==> |r.rows| == |DataLines(lines)|
    ensures r.failure.Some? ==> r.failure.value == IndexError
    ensures Width(r, 1 + |ids|)
    decreases |lines|
  {
    if |lines| == 0 then RowStream([], Option.None)
    else if IsComment(lines[0]) then RawRows(ids, lines[1..], next)
    else
      var cells := ValuesForColumns(ids, lines[0]);
      if cells.Failure? then RowStream([], Some(cells.error))
      else
        var rest := RawRows(ids, lines[1..], next + 1);
        RowStream([[Int(next)] + cells.value] + rest.rows, rest.failure)
  }

  /** A line too short for the requested columns: the row loop raises
      IndexError on it. */
  ghost function TooShort(ids: seq<Option<nat>>): string -> bool {
    line => !Fits(ids, Split(line))
  }

  /** `r` stops, if at all, at a data line of `data` too short for the
      requested columns, namely the one after its last row. */
  ghost predicate StopsAtShortLine(ids: seq<Option<nat>>, data: seq<string>, r: RowStream) {
    r.failure.Some? ==> |r.rows| < |data| && TooShort(ids)(data[|r.rows|])
  }

  /** Putting one more element in front of both sequences keeps `p` at the
      element of `xs` just past the end of `ys`. */
  lemma PastEndCons<A, B>(p: A -> bool, x: A, xs: seq<A>, y: B, ys: seq<B>)
    requires |ys| < |xs| && p(xs[|ys|])
    ensures |[y] + ys| < |[x] + xs| && p(([x] + xs)[|[y] + ys|])
  {
    assert ([x] + xs)[|[y] + ys|] == xs[|ys|];
  }

  /** The row loop stops with its IndexError exactly at the first data
      line too short for the requested columns: every data line before it
      yielded a row. */
  lemma {:induction false} RawRowsStop(ids: seq<Option<nat>>, lines: seq<string>, next: int)
    ensures StopsAtShortLine(ids, DataLines(lines), RawRows(ids, lines, next))
    decreases |lines|
  {
    if |lines| > 0 {
      if IsComment(lines[0]) {
        RawRowsSkip(ids, lines, next);
        RawRowsStop(ids, lines[1..], next);
      } else if Fits(ids, Split(lines[0])) {
        RawRowsStop(ids, lines[1..], next + 1);
        RawRowsStopStep(ids, lines, next);
      } else {
        RawRowsShortLine(ids, lines, next);
      }
    }
  }

  /** Every row of a stream has `width` entries. */
  predicate Width(s: RowStream, width: nat) {
    forall i :: 0 <= i < |s.rows| ==> |s.rows[i]| == width
  }

  /** `HaloStatFile.iter_rows_raw`: opening a missing file raises before
      the first row. */
  function BaseRawRows(sf: StatFile, env: Env, args: seq<string>): (r: RowStream)
    ensures Width(r, 2 + |args|)
  {
    if sf.filename !in env.files then RowStream([], Some(FileNotFound(sf.filename)))
    else
      var lines := env.files[sf.filename];
      var ids := ColumnIndices(Header(lines), args);
      RawRows(ids, Body(lines), FinderOffsetStart(sf.kind))
  }

  /** `AmigaIDLStatFile.iter_rows_raw`: the offset of each row is replaced
      by its finder id. */
  function OverwriteOffsets(s: RowStream): (r: RowStream)
    requires forall i :: 0 <= i < |s.rows| ==> |s.rows[i]| >= 2
    ensures |r.rows| == |s.rows| && r.failure == s.failure
    ensures forall i :: 0 <= i < |r.rows| ==>
              |r.rows[i]| == |s.rows[i]| && r.rows[i][0] == r.rows[i][1] && r.rows[i][1..] == s.rows[i][1..]
  {
    RowStream(FinderIdFirst(s.rows), s.failure)
  }

  /** Each row with its first entry replaced by its second. */
  function FinderIdFirst(rows: seq<Row>): (r: seq<Row>)
    requires forall i :: 0 <= i < |rows| ==> |rows[i]| >= 2
    ensures |r| == |rows|
    ensures forall i :: 0 <= i < |r| ==>
              |r[i]| == |rows[i]| && r[i][0] == r[i][1] && r[i][1..] == rows[i][1..]
    decreases |rows|
  {
    if |rows| == 0 then []
    else [[rows[0][1]] + rows[0][1..]] + FinderIdFirst(rows[1..])
  }

  /** `self.iter_rows_raw(*args)`, dispatched on the reader class. */
  function IterRowsRaw(sf: StatFile, env: Env, args: seq<string>): (r: RowStream)
    ensures Width(r, 2 + |args|)
  {
    var base := BaseRawRows(sf, env, args);
    if sf.kind == AmigaIDL then OverwriteOffsets(base) else base
  }

  /** `_calculate_children`: the grouping of the rows read before any
      exception. The partial grouping stays in `_children_map` even when
      the iteration raises. */
  function ComputeChildren(sf: StatFile, env: Env): (ChildrenMap, Option<Error>) {
    var s := IterRowsRaw(sf, env, ["hostHalo"]);
    (CalculateChildren(s.rows), s.failure)
  }

  /** `_calculate_children` groups the rows read before any exception:
      the entry of every finder id other than -1 lists the finder ids of
      the rows naming it as host, in file order, and the exception, if
      any, is the one that ended the iteration. */
  lemma ComputeChildrenGroupsHosts(sf: StatFile, env: Env, id: Value)
    requires id != NoHost
    ensures var raw := IterRowsRaw(sf, env, ["hostHalo"]);
            && ComputeChildren(sf, env).1 == raw.failure
            && ChildHaloEntry(ComputeChildren(sf, env).0, id) == List(ChildrenOf(raw.rows, id))
  {
    ChildHaloEntryIsChildren(IterRowsRaw(sf, env, ["hostHalo"]).rows, id);
  }

  /** Some argument is served by the `childHalo` entry. */
  predicate UsesChildHalo(t: Table, args: seq<string>) {
    exists j :: 0 <= j < |args| && HasKey(t, args[j]) && Get(t, args[j]) == ChildHalo
  }

  /** The value `iter_rows` yields for one argument. */
  function ArgValue(env: Env, sf: StatFile, m: ChildrenMap, args: seq<string>, rawArgs: seq<string>, raw: Row, a: string)
    : (v: Value)
    requires rawArgs == RawArgs(sf.translations, args) && a in args
    requires |raw| == 2 + |rawArgs|
    ensures HasKey(sf.translations, a) && Get(sf.translations, a) == ChildHalo ==> v.List?
    ensures !HasKey(sf.translations, a) ==> v in raw[2..]
  {
    var t := sf.translations;
    if HasKey(t, a) && Get(t, a) == ChildHalo then
      assert "#ID" in Inputs(ChildHalo);
      ChildHaloEntry(m, raw[2..][IndexOf(rawArgs, "#ID")])
    else if HasKey(t, a) then
      env.evaluate(sf.kind, sf.filename, a, rawArgs, raw[2..])
    else
      var k := IndexOf(rawArgs, a);
      assert raw[2..][k] == raw[2 + k];
      raw[2 + k]
  }

  /** One row of `iter_rows`: offset and finder id, then one value per
      argument. */
  function TranslateRow(env: Env, sf: StatFile, m: ChildrenMap, args: seq<string>, rawArgs: seq<string>, raw: Row): (row: Row)
    requires rawArgs == RawArgs(sf.translations, args)
    requires |raw| == 2 + |rawArgs|
    ensures |row| == 2 + |args|
    ensures row[0] == raw[0] && row[1] == raw[1]
  {
    [raw[0], raw[1]] + ArgValues(env, sf, m, args, rawArgs, raw, args)
  }

  /** The values of the arguments `names`, in order. */
  function ArgValues(env: Env, sf: StatFile, m: ChildrenMap, args: seq<string>, rawArgs: seq<string>, raw: Row, names: seq<string>)
    : (values: seq<Value>)
    requires rawArgs == RawArgs(sf.translations, args)
    requires |raw| == 2 + |rawArgs|
    requires forall i :: 0 <= i < |names| ==> names[i] in args
    ensures |values| == |names|
    decreases |names|
  {
    if |names| == 0 then []
    else [ArgValue(env, sf, m, args, rawArgs, raw, names[0])] + ArgValues(env, sf, m, args, rawArgs, raw, names[1..])
  }

  lemma {:induction false} ArgValuesAt(env: Env, sf: StatFile, m: ChildrenMap, args: seq<string>, rawArgs: seq<string>, raw: Row,
                                       names: seq<string>, j: nat)
    requires rawArgs == RawArgs(sf.translations, args)
    requires |raw| == 2 + |rawArgs|
    requires forall i :: 0 <= i < |names| ==> names[i] in args
    requires j < |names|
    ensures ArgValues(env, sf, m, args, rawArgs, raw, names)[j] == ArgValue(env, sf, m, args, rawArgs, raw, names[j])
    decreases |names|
  {
    if j > 0 {
      ArgValuesAt(env, sf, m, args, rawArgs, raw, names[1..], j - 1);
    }
  }

  /** Position `2 + j` of a translated row is the value of argument `j`. */
  lemma TranslateRowAt(env: Env, sf: StatFile, m: ChildrenMap, args: seq<string>, rawArgs: seq<string>, raw: Row, j: nat)
    requires rawArgs == RawArgs(sf.translations, args)
    requires |raw| == 2 + |rawArgs|
    requires j < |args|
    ensures TranslateRow(env, sf, m, args, rawArgs, raw)[2 + j] == ArgValues(env, sf, m, args, rawArgs, raw, args)[j]
  {}

  /** An argument without a translation entry is copied from its column
      in the raw row. */
  lemma TranslateRowPassesThrough(env: Env, sf: StatFile, m: ChildrenMap, args: seq<string>, rawArgs: seq<string>, raw: Row, j: nat)
    requires rawArgs == RawArgs(sf.translations, args)
    requires |raw| == 2 + |rawArgs|
    requires j < |args| && !HasKey(sf.translations, args[j])
    ensures args[j] in rawArgs
    ensures TranslateRow(env, sf, m, args, rawArgs, raw)[2 + j] == raw[2 + IndexOf(rawArgs, args[j])]
  {
    TranslateRowAt(env, sf, m, args, rawArgs, raw, j);
    ArgValuesAt(env, sf, m, args, rawArgs, raw, args, j);
  }

  function TranslateRows(env: Env, sf: StatFile, m: ChildrenMap, args: seq<string>, raw: RowStream): (r: RowStream)
    requires Width(raw, 2 + |RawArgs(sf.translations, args)|)
    ensures |r.rows| == |raw.rows| && r.failure == raw.failure
    ensures Width(r, 2 + |args|)
  {
    RowStream(TranslateEach(env, sf, m, args, RawArgs(sf.translations, args), raw.rows), raw.failure)
  }

  /** Each raw row translated in turn. */
  function TranslateEach(env: Env, sf: StatFile, m: ChildrenMap, args: seq<string>, rawArgs: seq<string>, rows: seq<Row>)
    : (r: seq<Row>)
    requires rawArgs == RawArgs(sf.translations, args)
    requires forall i :: 0 <= i < |rows| ==> |rows[i]| == 2 + |rawArgs|
    ensures |r| == |rows|
    ensures forall i :: 0 <= i < |r| ==> |r[i]| == 2 + |args|
    decreases |rows|
  {
    if |rows| == 0 then []
    else [TranslateRow(env, sf, m, args, rawArgs, rows[0])] + TranslateEach(env, sf, m, args, rawArgs, rows[1..])
  }

  /** Row `i` of `iter_rows` is the translation of raw row `i`. */
  lemma {:induction false} TranslateEachAt(env: Env, sf: StatFile, m: ChildrenMap, args: seq<string>, rawArgs: seq<string>,
                                           rows: seq<Row>, i: nat)
    requires rawArgs == RawArgs(sf.translations, args)
    requires forall k :: 0 <= k < |rows| ==> |rows[k]| == 2 + |rawArgs|
    requires i < |rows|
    ensures TranslateEach(env, sf, m, args, rawArgs, rows)[i] == TranslateRow(env, sf, m, args, rawArgs, rows[i])
    decreases |rows|
  {
    if i > 0 {
      TranslateEachAt(env, sf, m, args, rawArgs, rows[1..], i - 1);
    }
  }

  /** `iter_rows`: the raw rows of the expanded argument list, each turned
      into offset, finder id and one value per argument. The first
      `childHalo` lookup computes the children map and caches it in the
      returned instance; when that computation raises, no row is
      yielded. */
  function IterRows(sf: StatFile, env: Env, args: seq<string>): (r: (StatFile, RowStream))
    ensures r.0.kind == sf.kind && r.0.filename == sf.filename && r.0.translations == sf.translations
    ensures sf.children.Some? ==> r.0 == sf
    ensures r.0.children.None? ==> r.0 == sf
    ensures sf.children.None? && r.0.children.Some? ==> r.0.children == Some(ComputeChildren(sf, env).0)
    ensures Width(r.1, 2 + |args|)
  {
    var rawArgs := RawArgs(sf.translations, args);
    var raw := IterRowsRaw(sf, env, rawArgs);
    if UsesChildHalo(sf.translations, args) && |raw.rows| > 0 && sf.children.None? then
      var (m, failure) := ComputeChildren(sf, env);
      var sf' := sf.(children := Some(m));
      if failure.Some? then (sf', RowStream([], failure))
      else (sf', TranslateRows(env, sf, m, args, raw))
    else
      (sf, TranslateRows(env, sf, sf.children.GetOr(map[]), args, raw))
  }

  /** `out` follows `raw` row by row with offset and finder id copied and
      every untranslated argument taken from the first position of its name
      in the expanded argument list. */
  ghost predicate PassesThrough(t: Table, args: seq<string>, raw: RowStream, out: RowStream)
    requires Width(raw, 2 + |RawArgs(t, args)|) && Width(out, 2 + |args|)
  {
    && |out.rows| <= |raw.rows|
    && forall i :: 0 <= i < |out.rows| ==>
         && out.rows[i][0] == raw.rows[i][0]
         && out.rows[i][1] == raw.rows[i][1]
         && forall j :: 0 <= j < |args| && !HasKey(t, args[j]) ==>
              out.rows[i][2 + j] == raw.rows[i][2 + IndexOf(RawArgs(t, args), args[j])]
  }

  lemma TranslateRowsPassesThrough(env: Env, sf: StatFile, m: ChildrenMap, args: seq<string>, raw: RowStream)
    requires Width(raw, 2 + |RawArgs(sf.translations, args)|)
    ensures |TranslateRows(env, sf, m, args, raw).rows| == |raw.rows|
    ensures PassesThrough(sf.translations, args, raw, TranslateRows(env, sf, m, args, raw))
  {
    forall i | 0 <= i < |raw.rows| {
      TranslatedRowPasses(env, sf, m, args, raw, i);
    }
  }

  /** The same for row `i` alone. */
  lemma TranslatedRowPasses(env: Env, sf: StatFile, m: ChildrenMap, args: seq<string>, raw: RowStream, i: nat)
    requires Width(raw, 2 + |RawArgs(sf.translations, args)|)
    requires i < |raw.rows|
    ensures var out := TranslateRows(env, sf, m, args, raw).rows[i];
            && out[0] == raw.rows[i][0]
            && out[1] == raw.rows[i][1]
            && forall j :: 0 <= j < |args| && !HasKey(sf.translations, args[j]) ==>
                 out[2 + j] == raw.rows[i][2 + IndexOf(RawArgs(sf.translations, args), args[j])]
  {
    var rawArgs := RawArgs(sf.translations, args);
    TranslateEachAt(env, sf, m, args, rawArgs, raw.rows, i);
    TranslateRowPassesAll(env, sf, m, args, rawArgs, raw.rows[i]);
  }

  lemma TranslateRowPassesAll(env: Env, sf: StatFile, m: ChildrenMap, args: seq<string>, rawArgs: seq<string>, raw: Row)
    requires rawArgs == RawArgs(sf.translations, args)
    requires |raw| == 2 + |rawArgs|
    ensures forall j :: 0 <= j < |args| && !HasKey(sf.translations, args[j]) ==>
              TranslateRow(env, sf, m, args, rawArgs, raw)[2 + j] == raw[2 + IndexOf(rawArgs, args[j])]
  {
    forall j | 0 <= j < |args| && !HasKey(sf.translations, args[j])
      ensures TranslateRow(env, sf, m, args, rawArgs, raw)[2 + j] == raw[2 + IndexOf(rawArgs, args[j])]
    {
      TranslateRowPassesThrough(env, sf, m, args, rawArgs, raw, j);
    }
  }

  /** This `iter_rows` call runs `_calculate_children` (a fresh instance,
      a `childHalo` argument and at least one row to translate) and that
      computation raises. */
  ghost predicate ChildrenRaise(sf: StatFile, env: Env, args: seq<string>) {
    && UsesChildHalo(sf.translations, args)
    && |IterRowsRaw(sf, env, RawArgs(sf.translations, args)).rows| > 0
    && sf.children.None?
    && ComputeChildren(sf, env).1.Some?
  }

  /** `iter_rows` yields one row per raw row and then raises what the raw
      loop raised, unless computing the children map raised, in which case
      it yields nothing and raises that exception. Every row copies offset
      and finder id from its raw row and passes an untranslated argument
      through from the first position of its name in the expanded argument
      list. */
  lemma IterRowsPassThrough(sf: StatFile, env: Env, args: seq<string>)
    ensures var raw := IterRowsRaw(sf, env, RawArgs(sf.translations, args));
            var out := IterRows(sf, env, args).1;
            && (ChildrenRaise(sf, env, args) ==> out == RowStream([], ComputeChildren(sf, env).1))
            && (!ChildrenRaise(sf, env, args) ==> |out.rows| == |raw.rows| && out.failure == raw.failure)
    ensures PassesThrough(sf.translations, args, IterRowsRaw(sf, env, RawArgs(sf.translations, args)), IterRows(sf, env, args).1)
  {
    var rawArgs := RawArgs(sf.translations, args);
    var raw := IterRowsRaw(sf, env, rawArgs);
    if UsesChildHalo(sf.translations, args) && |raw.rows| > 0 && sf.children.None? {
      var (m, failure) := ComputeChildren(sf, env);
      if failure.None? {
        TranslateRowsPassesThrough(env, sf, m, args, raw);
      }
    } else {
      TranslateRowsPassesThrough(env, sf, sf.children.GetOr(map[]), args, raw);
    }
  }

  /** The first `childHalo` lookup of a fresh AHF instance computes the
      children map from the `hostHalo` column and yields, for every row,
      the children recorded under that row's `#ID` value; the map is kept
      in the returned instance. */
  lemma IterRowsChildHalo(sf: StatFile, env: Env, args: seq<string>, i: nat, j: nat)
    requires sf.children.None?
    requires j < |args| && HasKey(sf.translations, args[j]) && Get(sf.translations, args[j]) == ChildHalo
    requires i < |IterRows(sf, env, args).1.rows|
    ensures var rawArgs := RawArgs(sf.translations, args);
            var raw := IterRowsRaw(sf, env, rawArgs);
            var m := ComputeChildren(sf, env).0;
            && IterRows(sf, env, args).0.children == Some(m)
            && "#ID" in rawArgs
            && i < |raw.rows|
            && IterRows(sf, env, args).1.rows[i][2 + j] == ChildHaloEntry(m, raw.rows[i][2 + IndexOf(rawArgs, "#ID")])
  {
    var raw := IterRowsRaw(sf, env, RawArgs(sf.translations, args));
    IterRowsComputesChildren(sf, env, args);
    TranslateRowsChildHalo(env, sf, ComputeChildren(sf, env).0, args, raw, i, j);
  }

  /** A `childHalo` argument reads the children map at the row's `#ID`. */
  lemma TranslateRowsChildHalo(env: Env, sf: StatFile, m: ChildrenMap, args: seq<string>, raw: RowStream, i: nat, j: nat)
    requires Width(raw, 2 + |RawArgs(sf.translations, args)|)
    requires i < |raw.rows|
    requires j < |args| && HasKey(sf.translations, args[j]) && Get(sf.translations, args[j]) == ChildHalo
    ensures var rawArgs := RawArgs(sf.translations, args);
            && "#ID" in rawArgs
            && TranslateRows(env, sf, m, args, raw).rows[i][2 + j]
               == ChildHaloEntry(m, raw.rows[i][2 + IndexOf(rawArgs, "#ID")])
  {
    var rawArgs := RawArgs(sf.translations, args);
    TranslateEachAt(env, sf, m, args, rawArgs, raw.rows, i);
    TranslateRowAt(env, sf, m, args, rawArgs, raw.rows[i], j);
    ArgValuesAt(env, sf, m, args, rawArgs, raw.rows[i], args, j);
    ArgValueChildHalo(env, sf, m, args, rawArgs, raw.rows[i], args[j]);
  }

  lemma ArgValueChildHalo(env: Env, sf: StatFile, m: ChildrenMap, args: seq<string>, rawArgs: seq<string>, raw: Row, a: string)
    requires rawArgs == RawArgs(sf.translations, args) && a in args
    requires |raw| == 2 + |rawArgs|
    requires HasKey(sf.translations, a) && Get(sf.translations, a) == ChildHalo
    ensures "#ID" in rawArgs
    ensures ArgValue(env, sf, m, args, rawArgs, raw, a) == ChildHaloEntry(m, raw[2..][IndexOf(rawArgs, "#ID")])
  {
    assert "#ID" in Inputs(ChildHalo);
    InputInRawArgs(sf.translations, args, a, "#ID");
  }

  lemma IterRowsComputesChildren(sf: StatFile, env: Env, args: seq<string>)
    requires sf.children.None?
    requires exists j :: 0 <= j < |args| && HasKey(sf.translations, args[j]) && Get(sf.translations, args[j]) == ChildHalo
    requires |IterRows(sf, env, args).1.rows| > 0
    ensures var m := ComputeChildren(sf, env).0;
            IterRows(sf, env, args)
            == (sf.(children := Some(m)), TranslateRows(env, sf, m, args, IterRowsRaw(sf, env, RawArgs(sf.translations, args))))
  {
    var raw := IterRowsRaw(sf, env, RawArgs(sf.translations, args));
    assert UsesChildHalo(sf.translations, args);
  }

  /** `_children_map` is computed at most once: once an instance holds it,
      later iterations keep the instance as it is and read the cached map. */
  lemma ChildrenComputedAtMostOnce(sf: StatFile, env: Env, first: seq<string>, later: seq<string>)
    ensures var sf1 := IterRows(sf, env, first).0;
            sf1.children.Some? ==>
              && IterRows(sf1, env, later).0 == sf1
              && IterRows(sf1, env, later).1
                 == TranslateRows(env, sf1, sf1.children.value, later, IterRowsRaw(sf1, env, RawArgs(sf1.translations, later)))
  {}

  /** Comment lines never matter: the rows are those of the data lines
      alone. */
  lemma {:induction false} RawRowsOnlySeeDataLines(ids: seq<Option<nat>>, lines: seq<string>, next: int)
    ensures RawRows(ids, lines, next) == RawRows(ids, DataLines(lines), next)
    decreases |lines|
  {
    if |lines| > 0 {
      RawRowsOnlySeeDataLines(ids, lines[1..], next + 1);
      RawRowsOnlySeeDataLines(ids, lines[1..], next);
      if !IsComment(lines[0]) {
        var data := DataLines(lines);
        assert data == [lines[0]] + DataLines(lines[1..]);
        assert data[1..] == DataLines(lines[1..]);
      }
    }
  }

  /** Removing a comment line does not change the data lines. */
  lemma {:induction false} DataLinesSkipComment(before: seq<string>, comment: string, after: seq<string>)
    requires IsComment(comment)
    ensures DataLines(before + [comment] + after) == DataLines(before + after)
    decreases |before|
  {
    var with := before + [comment] + after;
    if |before| == 0 {
      assert with[1..] == after;
      assert before + after == after;
    } else {
      assert with[0] == before[0] && with[1..] == before[1..] + [comment] + after;
      assert (before + after)[0] == before[0] && (before + after)[1..] == before[1..] + after;
      DataLinesSkipComment(before[1..], comment, after);
    }
  }

  /** Inserting a comment line anywhere after the header changes neither
      the rows nor their offsets. */
  lemma CommentLineChangesNothing(ids: seq<Option<nat>>, before: seq<string>, comment: string, after: seq<string>, next: int)
    requires IsComment(comment)
    ensures RawRows(ids, before + [comment] + after, next) == RawRows(ids, before + after, next)
  {
    RawRowsOnlySeeDataLines(ids, before + [comment] + after, next);
    RawRowsOnlySeeDataLines(ids, before + after, next);
    DataLinesSkipComment(before, comment, after);
  }

  /** Outside Amiga IDL, row `k` of `iter_rows_raw` on an existing file
      comes from the `k`-th non-comment line after the header: offset
      `_finder_offset_start + k`, the finder id from column 0, and per
      argument `None` or the token under its header column. */
  lemma IterRowsRawShape(sf: StatFile, env: Env, args: seq<string>, k: nat)
    requires sf.kind != AmigaIDL && sf.filename in env.files
    requires k < |IterRowsRaw(sf, env, args).rows|
    ensures k < |DataLines(Body(env.files[sf.filename]))|
    ensures RowShape(Header(env.files[sf.filename]), args, DataLines(Body(env.files[sf.filename]))[k],
                     FinderOffsetStart(sf.kind), k, IterRowsRaw(sf, env, args).rows[k])
  {
    assert IterRowsRaw(sf, env, args) == BaseRawRows(sf, env, args);
    BaseRowShape(sf, env, args, k);
  }

  /** The same for the base reader, which every class but Amiga IDL uses
      unchanged. */
  lemma BaseRowShape(sf: StatFile, env: Env, args: seq<string>, k: nat)
    requires sf.filename in env.files
    requires k < |BaseRawRows(sf, env, args).rows|
    ensures k < |DataLines(Body(env.files[sf.filename]))|
    ensures RowShape(Header(env.files[sf.filename]), args, DataLines(Body(env.files[sf.filename]))[k],
                     FinderOffsetStart(sf.kind), k, BaseRawRows(sf, env, args).rows[k])
  {
    LinesRowShape(env.files[sf.filename], args, FinderOffsetStart(sf.kind), k);
  }

  /** Row `k` of the loop over the lines after the header of `lines`. */
  lemma LinesRowShape(lines: seq<string>, args: seq<string>, start: int, k: nat)
    requires k < |RawRows(ColumnIndices(Header(lines), args), Body(lines), start).rows|
    ensures k < |DataLines(Body(lines))|
    ensures RowShape(Header(lines), args, DataLines(Body(lines))[k], start, k,
                     RawRows(ColumnIndices(Header(lines), args), Body(lines), start).rows[k])
  {
    var r := RawRows(ColumnIndices(Header(lines), args), Body(lines), start);
    RawRowsShape(Header(lines), args, Body(lines), start, r, k);
  }

  /** `iter_rows_raw` raises FileNotFound before any row when the file is
      missing. Otherwise, outside Amiga IDL and inside it alike, it yields
      at most one row per non-comment line after the header, all of them
      exactly when it raises nothing, and the only exception is
      IndexError. */
  lemma IterRowsRawOutcome(sf: StatFile, env: Env, args: seq<string>)
    ensures sf.filename !in env.files ==>
              IterRowsRaw(sf, env, args) == RowStream([], Some(FileNotFound(sf.filename)))
    ensures sf.filename in env.files ==>
              var data := DataLines(Body(env.files[sf.filename]));
              var r := IterRowsRaw(sf, env, args);
              && |r.rows| <= |data|
              && (r.failure.None? <==> |r.rows| == |data|)
              && (r.failure.Some? ==> r.failure.value == IndexError)
  {}

  /** One step of the row loop on a comment line: skipped, without
      advancing the counter. */
  lemma RawRowsSkip(ids: seq<Option<nat>>, lines: seq<string>, next: int)
    requires |lines| > 0 && IsComment(lines[0])
    ensures DataLines(lines) == DataLines(lines[1..])
    ensures RawRows(ids, lines, next) == RawRows(ids, lines[1..], next)
  {}

  /** One step of the row loop on a data line too short for the requested
      columns: the loop stops there with an IndexError. */
  lemma RawRowsShortLine(ids: seq<Option<nat>>, lines: seq<string>, next: int)
    requires |lines| > 0 && !IsComment(lines[0]) && !Fits(ids, Split(lines[0]))
    ensures RawRows(ids, lines, next) == RowStream([], Some(IndexError))
    ensures StopsAtShortLine(ids, DataLines(lines), RawRows(ids, lines, next))
  {
    assert DataLines(lines) == [lines[0]] + DataLines(lines[1..]);
  }

  /** The stop line of the row loop is found past a data line that yields
      a row. */
  lemma RawRowsStopStep(ids: seq<Option<nat>>, lines: seq<string>, next: int)
    requires |lines| > 0 && !IsComment(lines[0]) && Fits(ids, Split(lines[0]))
    requires StopsAtShortLine(ids, DataLines(lines[1..]), RawRows(ids, lines[1..], next + 1))
    ensures StopsAtShortLine(ids, DataLines(lines), RawRows(ids, lines, next))
  {
    RawRowsStep(ids, lines, next);
    var rest := RawRows(ids, lines[1..], next + 1);
    if rest.failure.Some? {
      PastEndCons(TooShort(ids), lines[0], DataLines(lines[1..]), [Int(next)] + ValuesForColumns(ids, lines[0]).value, rest.rows);
    }
  }

  /** One step of the row loop on a data line long enough for the
      requested columns: its row, then the rows of the rest. */
  lemma RawRowsStep(ids: seq<Option<nat>>, lines: seq<string>, next: int)
    requires |lines| > 0 && !IsComment(lines[0]) && Fits(ids, Split(lines[0]))
    ensures DataLines(lines) == [lines[0]] + DataLines(lines[1..])
    ensures RawRows(ids, lines, next)
            == RowStream([[Int(next)] + ValuesForColumns(ids, lines[0]).value] + RawRows(ids, lines[1..], next + 1).rows,
                         RawRows(ids, lines[1..], next + 1).failure)
  {}

  /** Row `k` of the row loop comes from the `k`-th non-comment line. */
  lemma RawRowsShape(header: seq<string>, args: seq<string>, body: seq<string>, start: int, r: RowStream, k: nat)
    requires r == RawRows(ColumnIndices(header, args), body, start)
    requires k < |r.rows|
    ensures k < |DataLines(body)|
    ensures RowShape(header, args, DataLines(body)[k], start, k, r.rows[k])
  {
    RawRowsCounter(ColumnIndices(header, args), body, start);
    RawRowsCells(header, args, body, start);
    assert CellsOf(header, args)(DataLines(body)[k], r.rows[k]);
  }

  /** Row `i` of `r` starts with the counter `start + i`. */
  ghost predicate Counted(r: RowStream, start: int) {
    forall i :: 0 <= i < |r.rows| ==> |r.rows[i]| > 0 && r.rows[i][0] == Int(start + i)
  }

  lemma CountedCons(row: Row, rest: RowStream, start: int)
    requires |row| > 0 && row[0] == Int(start)
    requires Counted(rest, start + 1)
    ensures Counted(RowStream([row] + rest.rows, rest.failure), start)
  {
    var rows := [row] + rest.rows;
    forall i | 0 < i < |rows|
      ensures |rows[i]| > 0 && rows[i][0] == Int(start + i)
    {
      assert rows[i] == rest.rows[i - 1];
    }
  }

  /** Comment lines do not advance the counter of the row loop: row `i`
      starts with `start + i`. */
  lemma {:induction false} RawRowsCounter(ids: seq<Option<nat>>, body: seq<string>, start: int)
    ensures Counted(RawRows(ids, body, start), start)
    decreases |body|
  {
    if |body| > 0 {
      if IsComment(body[0]) {
        RawRowsSkip(ids, body, start);
        RawRowsCounter(ids, body[1..], start);
      } else if Fits(ids, Split(body[0])) {
        RawRowsStep(ids, body, start);
        RawRowsCounter(ids, body[1..], start + 1);
        CountedCons([Int(start)] + ValuesForColumns(ids, body[0]).value, RawRows(ids, body[1..], start + 1), start);
      } else {
        RawRowsShortLine(ids, body, start);
      }
    }
  }

  /** `rel` relates every element of `ys` to the element of `xs` at the
      same position. */
  ghost predicate Pointwise<A, B>(rel: (A, B) -> bool, xs: seq<A>, ys: seq<B>) {
    |ys| <= |xs| && forall i :: 0 <= i < |ys| ==> rel(xs[i], ys[i])
  }

  lemma PointwiseCons<A, B>(rel: (A, B) -> bool, x: A, xs: seq<A>, y: B, ys: seq<B>)
    requires rel(x, y) && Pointwise(rel, xs, ys)
    ensures Pointwise(rel, [x] + xs, [y] + ys)
  {
    forall i | 0 < i < |[y] + ys|
      ensures rel(([x] + xs)[i], ([y] + ys)[i])
    {
      assert ([x] + xs)[i] == xs[i - 1] && ([y] + ys)[i] == ys[i - 1];
    }
  }

  /** `row` holds the cells of `line`. */
  ghost function CellsOf(header: seq<string>, args: seq<string>): (string, Row) -> bool {
    (line, row) => RowCells(header, args, line, row)
  }

  /** Row `k` of the row loop holds the cells of the `k`-th non-comment
      line. */
  lemma {:induction false} RawRowsCells(header: seq<string>, args: seq<string>, body: seq<string>, start: int)
    ensures Pointwise(CellsOf(header, args), DataLines(body), RawRows(ColumnIndices(header, args), body, start).rows)
    decreases |body|
  {
    var ids := ColumnIndices(header, args);
    if |body| > 0 {
      if IsComment(body[0]) {
        RawRowsSkip(ids, body, start);
        RawRowsCells(header, args, body[1..], start);
      } else if Fits(ids, Split(body[0])) {
        RawRowsStep(ids, body, start);
        RawRowsCells(header, args, body[1..], start + 1);
        LineRowCells(header, args, body[0], start);
        PointwiseCons(CellsOf(header, args), body[0], DataLines(body[1..]), [Int(start)] + ValuesForColumns(ids, body[0]).value, RawRows(ids, body[1..], start + 1).rows);
      } else {
        RawRowsShortLine(ids, body, start);
      }
    }
  }

  /** The row built from a data line long enough for the requested
      columns holds that line's cells. */
  lemma LineRowCells(header: seq<string>, args: seq<string>, line: string, n: int)
    requires Fits(ColumnIndices(header, args), Split(line))
    ensures RowCells(header, args, line, [Int(n)] + ValuesForColumns(ColumnIndices(header, args), line).value)
  {
    var ids := ColumnIndices(header, args);
    var values := ValuesForColumns(ids, line).value;
    var row := [Int(n)] + values;
    ValuesForColumnsCells(ids, line);
    assert row[1] == values[0];
    forall j | 0 <= j < |args|
      ensures && (args[j] !in header ==> row[2 + j] == Value.None)
              && (args[j] in header ==>
                    IndexOf(header, args[j]) < |Split(line)|
                    && row[2 + j] == CastToken(Split(line)[IndexOf(header, args[j])]))
    {
      ArgCell(header, args, line, j);
      assert row[2 + j] == values[j + 1];
    }
  }

  /** The value of argument `j` in a line's values: `None` when the header
      lacks its column, else the type-guessed token at its header index. */
  lemma ArgCell(header: seq<string>, args: seq<string>, line: string, j: nat)
    requires Fits(ColumnIndices(header, args), Split(line))
    requires j < |args|
    ensures var v := ValuesForColumns(ColumnIndices(header, args), line).value[j + 1];
            && (args[j] !in header ==> v == Value.None)
            && (args[j] in header ==>
                  IndexOf(header, args[j]) < |Split(line)|
                  && v == CastToken(Split(line)[IndexOf(header, args[j])]))
  {
    ValuesForColumnsCells(ColumnIndices(header, args), line);
  }

  /** Amiga IDL rows carry the finder id in place of the offset and are
      otherwise the rows of the base reader. */
  lemma AmigaRowsRepeatFinderId(sf: StatFile, env: Env, args: seq<string>)
    requires sf.kind == AmigaIDL
    ensures var r := IterRowsRaw(sf, env, args);
            var base := BaseRawRows(sf, env, args);
            && |r.rows| == |base.rows| && r.failure == base.failure
            && forall i :: 0 <= i < |r.rows| ==> r.rows[i][0] == r.rows[i][1] && r.rows[i][1..] == base.rows[i][1..]
  {}

  /** `all_columns`: the header's column names followed by the keys of
      the translation table. */
  function AllColumns(sf: StatFile, env: Env): (r: Result<seq<string>, Error>)
    ensures r.Failure? <==> sf.filename !in env.files
    ensures r.Success? ==>
              var header := Header(env.files[sf.filename]);
              && |r.value| == |header| + |sf.translations|
              && r.value[..|header|] == header
              && forall k :: 0 <= k < |sf.translations| ==> r.value[|header| + k] == sf.translations[k].0
  {
    if sf.filename !in env.files then Failure(FileNotFound(sf.filename))
    else Success(Header(env.files[sf.filename]) + Keys(sf.translations))
  }

  /** The columns of a table of rows: column `c` lists entry `c` of every
      row, in row order. */
  method Transpose(rows: seq<Row>, width: nat) returns (columns: seq<seq<Value>>)
    requires forall i :: 0 <= i < |rows| ==> |rows[i]| == width
    ensures |columns| == width
    ensures forall c :: 0 <= c < width ==> |columns[c]| == |rows|
    ensures forall i, c :: 0 <= i < |rows| && 0 <= c < width ==> columns[c][i] == rows[i][c]
  {
    columns := seq(width, _ => []);
    var i := 0;
    while i < |rows|
      invariant 0 <= i <= |rows|
      invariant |columns| == width
      invariant forall c :: 0 <= c < width ==> |columns[c]| == i
      invariant forall k, c :: 0 <= k < i && 0 <= c < width ==> columns[c][k] == rows[k][c]
    {
      var row := rows[i];
      columns := seq(width, c requires 0 <= c < width => columns[c] + [row[c]]);
      i := i + 1;
    }
  }

  /** `read`: the rows of `iter_rows` transposed into one column per
      position (offset, finder id, then the arguments). Any exception
      during the iteration propagates, so no columns are returned. */
  method Read(sf: StatFile, env: Env, args: seq<string>) returns (sf': StatFile, r: Result<seq<seq<Value>>, Error>)
    ensures var it := IterRows(sf, env, args);
            && sf' == it.0
            && (r.Failure? <==> it.1.failure.Some?)
            && (r.Failure? ==> r.error == it.1.failure.value)
            && (r.Success? ==>
                  && |r.value| == 2 + |args|
                  && (forall c :: 0 <= c < |r.value| ==> |r.value[c]| == |it.1.rows|)
                  && (forall i, c :: 0 <= i < |it.1.rows| && 0 <= c < 2 + |args| ==> r.value[c][i] == it.1.rows[i][c]))
  {
    var it := IterRows(sf, env, args);
    sf' := it.0;
    if it.1.failure.Some? {
      r := Failure(it.1.failure.value);
    } else {
      var columns := Transpose(it.1.rows, 2 + |args|);
      r := Success(columns);
    }
  }
}

=== FILE: text.dfy ===
/**
 * The string operations the stat-file reader relies on: Python's
 * argument-less `str.split()`, `str.split(sep)` with a one-character
 * separator, `sep.join`, `str.startswith` and `list.index`.
 */
module Text {

  /** Python's `str.isspace` for one character (`\t\n\v\f\r`, the
      separators 0x1c-0x1f, space, and the Unicode space characters). */
  predicate IsSpace(c: char) {
    var n := c as int;
    (0x09 <= n <= 0x0d) || (0x1c <= n <= 0x20) || n == 0x85 || n == 0xa0
    || n == 0x1680 || (0x2000 <= n <= 0x200a) || n == 0x2028 || n == 0x2029
    || n == 0x202f || n == 0x205f || n == 0x3000
  }

  predicate NoSpace(s: string) {
    forall i :: 0 <= i < |s| ==> !IsSpace(s[i])
  }

  /** A token as `str.split()` produces it: non-empty and free of whitespace. */
  predicate IsToken(s: string) {
    |s| > 0 && NoSpace(s)
  }

  predicate StartsWith(s: string, prefix: string) {
    |prefix| <= |s| && s[..|prefix|] == prefix
  }

  /** The input with its leading whitespace removed. */
  function DropSpace(s: string): (r: string)
    ensures |r| <= |s| && r == s[|s| - |r|..]
    ensures r == [] || !IsSpace(r[0])
    ensures forall i :: 0 <= i < |s| - |r| ==> IsSpace(s[i])
  {
    if |s| > 0 && IsSpace(s[0]) then DropSpace(s[1..]) else s
  }

  /** The longest whitespace-free prefix of the input. */
  function TakeWord(s: string): (r: string)
    ensures |r| <= |s| && r == s[..|r|]
    ensures NoSpace(r)
    ensures |r| < |s| ==> IsSpace(s[|r|])
  {
    if |s| > 0 && !IsSpace(s[0]) then [s[0]] + TakeWord(s[1..]) else []
  }

  /** Python's `s.split()`: the maximal runs of non-whitespace characters. */
  function Split(s: string): (r: seq<string>)
    ensures forall i :: 0 <= i < |r| ==> IsToken(r[i])
    decreases |s|
  {
    var t := DropSpace(s);
    if t == [] then []
    else
      var w := TakeWord(t);
      assert !IsSpace(t[0]);
      assert |w| > 0;
      var rest := Split(t[|w|..]);
      ConsTokens(w, rest);
      [w] + rest
  }

  lemma ConsTokens(w: string, ws: seq<string>)
    requires IsToken(w)
    requires forall i :: 0 <= i < |ws| ==> IsToken(ws[i])
    ensures forall i :: 0 <= i < |[w] + ws| ==> IsToken(([w] + ws)[i])
  {
    forall i | 0 <= i < |[w] + ws|
      ensures IsToken(([w] + ws)[i])
    {
      if i > 0 {
        assert ([w] + ws)[i] == ws[i - 1];
      }
    }
  }

  /** Tokens joined by single spaces: Python's `" ".join(ws)`. */
  function JoinWith(ws: seq<string>, sep: string): string {
    if |ws| == 0 then []
    else if |ws| == 1 then ws[0]
    else ws[0] + sep + JoinWith(ws[1..], sep)
  }

  function Concat(ws: seq<string>): string {
    if |ws| == 0 then [] else ws[0] + Concat(ws[1..])
  }

  /** The non-whitespace characters of a string, in order. */
  function NonSpaceChars(s: string): string {
    if |s| == 0 then []
    else if IsSpace(s[0]) then NonSpaceChars(s[1..])
    else [s[0]] + NonSpaceChars(s[1..])
  }

  lemma NonSpaceCharsAppend(a: string, b: string)
    ensures NonSpaceChars(a + b) == NonSpaceChars(a) + NonSpaceChars(b)
  {
    if |a| > 0 {
      assert (a + b)[1..] == a[1..] + b;
      NonSpaceCharsAppend(a[1..], b);
    } else {
      assert a + b == b;
    }
  }

  lemma NonSpaceCharsOfSpaces(s: string)
    requires forall i :: 0 <= i < |s| ==> IsSpace(s[i])
    ensures NonSpaceChars(s) == []
  {
    if |s| > 0 {
      NonSpaceCharsOfSpaces(s[1..]);
    }
  }

  lemma NonSpaceCharsOfWord(s: string)
    requires NoSpace(s)
    ensures NonSpaceChars(s) == s
  {
    if |s| > 0 {
      NonSpaceCharsOfWord(s[1..]);
    }
  }

  lemma NonSpaceCharsDropSpace(s: string)
    ensures NonSpaceChars(DropSpace(s)) == NonSpaceChars(s)
  {
    if |s| > 0 && IsSpace(s[0]) {
      NonSpaceCharsDropSpace(s[1..]);
    }
  }

  lemma NonSpaceCharsOfWordPrefix(t: string)
    ensures NonSpaceChars(t) == TakeWord(t) + NonSpaceChars(t[|TakeWord(t)|..])
  {
    var w := TakeWord(t);
    assert t == w + t[|w|..];
    NonSpaceCharsAppend(w, t[|w|..]);
    NonSpaceCharsOfWord(w);
  }

  lemma ConcatCons(w: string, ws: seq<string>)
    ensures Concat([w] + ws) == w + Concat(ws)
  {
    assert ([w] + ws)[1..] == ws;
  }

  /** `str.split()` loses exactly the whitespace: gluing the tokens back
      together gives the line's non-whitespace characters. */
  lemma {:induction false} SplitKeepsNonSpace(s: string)
    ensures Concat(Split(s)) == NonSpaceChars(s)
    decreases |s|
  {
    var t := DropSpace(s);
    NonSpaceCharsDropSpace(s);
    if t != [] {
      var w := TakeWord(t);
      var rest := t[|w|..];
      NonSpaceCharsOfWordPrefix(t);
      SplitKeepsNonSpace(rest);
      ConcatCons(w, Split(rest));
    }
  }

  lemma SplitLeadingSpace(c: char, s: string)
    requires IsSpace(c)
    ensures Split([c] + s) == Split(s)
  {
    assert ([c] + s)[1..] == s;
  }

  lemma TakeWordOfWord(w: string, rest: string)
    requires NoSpace(w)
    requires rest == [] || IsSpace(rest[0])
    ensures TakeWord(w + rest) == w
  {
    if |w| > 0 {
      assert (w + rest)[1..] == w[1..] + rest;
      TakeWordOfWord(w[1..], rest);
    } else {
      assert w + rest == rest;
    }
  }

  /** A word stops at the first whitespace, so text after a whitespace
      character does not change it. */
  lemma {:induction false} TakeWordExtend(a: string, x: string)
    requires x == [] || IsSpace(x[0])
    ensures TakeWord(a + x) == TakeWord(a)
    decreases |a|
  {
    if |a| == 0 {
      assert a + x == x;
    } else {
      assert (a + x)[0] == a[0] && (a + x)[1..] == a[1..] + x;
      TakeWordExtend(a[1..], x);
    }
  }

  /** A whitespace character separates: `split()` of `a c b` is the
      pieces of `a` followed by the pieces of `b`. With `SplitOfToken`
      this determines `Split` on every string. */
  lemma {:induction false} SplitAtSpace(a: string, c: char, b: string)
    requires IsSpace(c)
    ensures Split(a + [c] + b) == Split(a) + Split(b)
    decreases |a|
  {
    if |a| == 0 {
      assert a + [c] + b == [c] + b;
      SplitLeadingSpace(c, b);
      SplitEmpty();
    } else if IsSpace(a[0]) {
      SplitAtSpace(a[1..], c, b);
      SplitAtSpaceAfterSpace(a, c, b);
    } else {
      var w := TakeWord(a);
      SplitAtSpace(a[|w|..], c, b);
      SplitAtSpaceAfterWord(a, c, b);
    }
  }

  lemma SplitAtSpaceAfterSpace(a: string, c: char, b: string)
    requires |a| > 0 && IsSpace(a[0])
    requires Split(a[1..] + [c] + b) == Split(a[1..]) + Split(b)
    ensures Split(a + [c] + b) == Split(a) + Split(b)
  {
    var x := a[1..] + [c] + b;
    ConsParts(a, [c], b);
    SplitLeadingSpace(a[0], x);
    SplitLeadingSpace(a[0], a[1..]);
  }

  /** `a + m + b` with `a` split into its head and tail. */
  lemma ConsParts(a: string, m: string, b: string)
    requires |a| > 0
    ensures a == [a[0]] + a[1..]
    ensures a + m + b == [a[0]] + (a[1..] + m + b)
  {
    assert a + m + b == [a[0]] + a[1..] + m + b;
  }

  lemma SplitAtSpaceAfterWord(a: string, c: char, b: string)
    requires |a| > 0 && !IsSpace(a[0]) && IsSpace(c)
    requires Split(a[|TakeWord(a)|..] + [c] + b) == Split(a[|TakeWord(a)|..]) + Split(b)
    ensures Split(a + [c] + b) == Split(a) + Split(b)
  {
    var s := a + [c] + b;
    var w := TakeWord(a);
    var rest := a[|w|..];
    SliceParts(a, [c], b, |w|);
    TakeWordExtend(a, [c] + b);
    assert TakeWord(s) == w;
    SplitOfWordStart(s);
    assert Split(s) == [w] + Split(rest + [c] + b);
    SplitOfWordStart(a);
    SeqAssoc([w], Split(rest), Split(b));
  }

  lemma SeqAssoc<T>(x: seq<T>, y: seq<T>, z: seq<T>)
    ensures x + (y + z) == x + y + z
  {}

  /** `a + m + b` regrouped, and cut inside `a`. */
  lemma SliceParts(a: string, m: string, b: string, k: nat)
    requires k <= |a|
    ensures a + m + b == a + (m + b)
    ensures (a + m + b)[k..] == a[k..] + m + b
  {}

  /** A string that starts with a non-whitespace character splits into its
      first word and the pieces of the rest. */
  lemma SplitOfWordStart(s: string)
    requires |s| > 0 && !IsSpace(s[0])
    ensures Split(s) == [TakeWord(s)] + Split(s[|TakeWord(s)|..])
  {
    assert DropSpace(s) == s;
  }

  lemma SplitOfToken(w: string)
    requires IsToken(w)
    ensures Split(w) == [w]
  {
    assert DropSpace(w) == w;
    TakeWordOfWord(w, []);
    assert w + [] == w;
    assert w[|w|..] == [];
  }

  lemma SplitOfTokenThenSpace(w: string, rest: string)
    requires IsToken(w)
    ensures Split(w + " " + rest) == [w] + Split(rest)
  {
    var s := w + " " + rest;
    assert s == w + (" " + rest);
    assert DropSpace(s) == s;
    TakeWordOfWord(w, " " + rest);
    assert s[|w|..] == [' '] + rest;
    SplitLeadingSpace(' ', rest);
  }

  lemma SplitJoinStep(ws: seq<string>)
    requires |ws| > 1 && IsToken(ws[0])
    requires Split(JoinWith(ws[1..], " ")) == ws[1..]
    ensures Split(JoinWith(ws, " ")) == ws
  {
    SplitOfTokenThenSpace(ws[0], JoinWith(ws[1..], " "));
    assert ws == [ws[0]] + ws[1..];
  }

  /** Splitting a single-space join of tokens gives the tokens back. */
  lemma {:induction false} SplitJoin(ws: seq<string>)
    requires forall i :: 0 <= i < |ws| ==> IsToken(ws[i])
    ensures Split(JoinWith(ws, " ")) == ws
  {
    if |ws| <= 1 {
      SplitJoinShort(ws);
    } else {
      SplitJoin(ws[1..]);
      SplitJoinStep(ws);
    }
  }

  lemma SplitJoinShort(ws: seq<string>)
    requires |ws| <= 1
    requires forall i :: 0 <= i < |ws| ==> IsToken(ws[i])
    ensures Split(JoinWith(ws, " ")) == ws
  {
    if |ws| == 0 {
      SplitJoinNone(ws);
    } else {
      SplitJoinSingle(ws);
    }
  }

  lemma SplitJoinNone(ws: seq<string>)
    requires |ws| == 0
    ensures Split(JoinWith(ws, " ")) == ws
  {
    assert JoinWith(ws, " ") == [];
    SplitEmpty();
  }

  lemma SplitJoinSingle(ws: seq<string>)
    requires |ws| == 1 && IsToken(ws[0])
    ensures Split(JoinWith(ws, " ")) == ws
  {
    assert JoinWith(ws, " ") == ws[0];
    SplitOfToken(ws[0]);
    assert ws == [ws[0]];
  }

  lemma SplitEmpty()
    ensures Split([]) == []
  {
    assert DropSpace([]) == [];
  }

  /** The first index of `x` in `s`, or `|s|` when absent (Python's
      `list.index`, with `|s|` standing for the ValueError). */
  function IndexOf<T(==)>(s: seq<T>, x: T): (r: nat)
    ensures r <= |s|
    ensures r < |s| ==> s[r] == x
    ensures forall j :: 0 <= j < r ==> s[j] != x
    ensures r == |s| <==> x !in s
  {
    if |s| == 0 then 0
    else if s[0] == x then 0
    else 1 + IndexOf(s[1..], x)
  }

  /** Extending a sequence does not move the first occurrence of an
      element it already holds. */
  lemma IndexOfExtended<T>(s: seq<T>, ext: seq<T>, x: T)
    requires x in s
    ensures IndexOf(s + ext, x) == IndexOf(s, x)
  {
    var r := IndexOf(s, x);
    var r2 := IndexOf(s + ext, x);
    assert (s + ext)[r] == x;
    if r2 < r {
      assert (s + ext)[r2] == s[r2];
    }
  }

  /** Python's `s.split(sep)` for a one-character separator: the pieces
      between separators, empty ones included. */
  function SplitOn(s: string, sep: char): (r: seq<string>)
    ensures |r| >= 1
    ensures forall i :: 0 <= i < |r| ==> sep !in r[i]
    decreases |s|
  {
    var k := IndexOf(s, sep);
    if k == |s| then [s] else [s[..k]] + SplitOn(s[k + 1..], sep)
  }

  /** `s.split(sep)[0]`: everything before the first separator. */
  function Before(s: string, sep: char): (r: string)
    ensures StartsWith(s, r)
    ensures sep !in r
    ensures |r| < |s| ==> s[|r|] == sep
    ensures sep !in s ==> r == s
  {
    s[..IndexOf(s, sep)]
  }

  lemma FirstPieceIsBefore(s: string, sep: char)
    ensures SplitOn(s, sep)[0] == Before(s, sep)
  {}

  /** Splitting on a separator and joining with it again is the identity. */
  lemma {:induction false} JoinSplitOn(s: string, sep: char)
    ensures JoinWith(SplitOn(s, sep), [sep]) == s
    decreases |s|
  {
    var k := IndexOf(s, sep);
    if k < |s| {
      var rest := s[k + 1..];
      var pieces := SplitOn(s, sep);
      assert pieces == [s[..k]] + SplitOn(rest, sep);
      assert pieces[0] == s[..k] && pieces[1..] == SplitOn(rest, sep);
      assert |pieces| > 1;
      JoinSplitOn(rest, sep);
      calc {
        JoinWith(pieces, [sep]);
        pieces[0] + [sep] + JoinWith(pieces[1..], [sep]);
        s[..k] + [sep] + rest;
        { assert s == s[..k] + [sep] + rest; }
        s;
      }
    }
  }
}

=== FILE: translations.dfy ===
/**
 * Column translation tables: `_column_translations` of each reader
 * class. A table is a Python dict, so it is kept as an association list
 * in insertion order. What each translation computes lives outside the
 * modelled core; an entry records only the raw columns it reads.
 */
module Translations {
  import opened Text

  /** A translation entry: `Translated` stands for the entries built from
      the translations module (DefaultValue, Function, Rename, Value),
      `ChildHalo` for AHF's virtual `childHalo` column. */
  datatype Translation = Translated(inputs: seq<string>) | ChildHalo

  /** `translation.inputs()`: the raw columns an entry reads. */
  function Inputs(t: Translation): seq<string> {
    match t
    case Translated(inputs) => inputs
    case ChildHalo => ["#ID"]
  }

  type Table = seq<(string, Translation)>

  function Keys(t: Table): (ks: seq<string>)
    ensures |ks| == |t|
    ensures forall i :: 0 <= i < |t| ==> ks[i] == t[i].0
    decreases |t|
  {
    if |t| == 0 then [] else [t[0].0] + Keys(t[1..])
  }

  predicate HasKey(t: Table, k: string) {
    k in Keys(t)
  }

  /** `t[k]`: the entry stored under the key. */
  function Get(t: Table, k: string): (v: Translation)
    requires HasKey(t, k)
    ensures exists i :: 0 <= i < |t| && t[i] == (k, v)
  {
    var i := IndexOf(Keys(t), k);
    t[i].1
  }

  /** `t[k] = v`: an existing key keeps its position, a new key is
      appended. */
  function Put(t: Table, k: string, v: Translation): (r: Table)
    ensures Keys(r) == if HasKey(t, k) then Keys(t) else Keys(t) + [k]
    ensures HasKey(r, k) && Get(r, k) == v
  {
    var i := IndexOf(Keys(t), k);
    if i < |t| then
      KeysOfUpdate(t, i, v);
      t[i := (k, v)]
    else
      KeysOfSnoc(t, k, v);
      assert IndexOf(Keys(t) + [k], k) == |t|;
      t + [(k, v)]
  }

  lemma KeysOfUpdate(t: Table, i: nat, v: Translation)
    requires i < |t|
    ensures Keys(t[i := (t[i].0, v)]) == Keys(t)
  {
    var r := t[i := (t[i].0, v)];
    assert forall j :: 0 <= j < |t| ==> Keys(r)[j] == Keys(t)[j];
  }

  lemma KeysOfSnoc(t: Table, k: string, v: Translation)
    ensures Keys(t + [(k, v)]) == Keys(t) + [k]
  {
    var r := t + [(k, v)];
    assert forall j :: 0 <= j < |r| ==> Keys(r)[j] == (Keys(t) + [k])[j];
  }

  /** Keys are unique, as in a dict. */
  predicate UniqueKeys(t: Table) {
    forall i, j :: 0 <= i < j < |t| ==> Keys(t)[i] != Keys(t)[j]
  }

  /** In a table with unique keys, `Put` changes only the entry under its
      key: every other key still maps to what it mapped to. */
  lemma PutLeavesOtherKeys(t: Table, k: string, v: Translation, other: string)
    requires UniqueKeys(t)
    requires other != k && HasKey(t, other)
    ensures UniqueKeys(Put(t, k, v))
    ensures HasKey(Put(t, k, v), other) && Get(Put(t, k, v), other) == Get(t, other)
  {
    PutKeepsUniqueKeys(t, k, v);
    PutKeepsOtherEntry(t, k, v, other);
  }

  lemma PutKeepsUniqueKeys(t: Table, k: string, v: Translation)
    requires UniqueKeys(t)
    ensures UniqueKeys(Put(t, k, v))
  {
    if !HasKey(t, k) {
      var ks := Keys(t) + [k];
      forall i, j | 0 <= i < j < |ks|
        ensures ks[i] != ks[j]
      {
        if j == |t| {
          assert ks[i] == Keys(t)[i];
        }
      }
    }
  }

  lemma PutKeepsOtherEntry(t: Table, k: string, v: Translation, other: string)
    requires other != k && HasKey(t, other)
    ensures HasKey(Put(t, k, v), other) && Get(Put(t, k, v), other) == Get(t, other)
  {
    var r := Put(t, k, v);
    var j := IndexOf(Keys(t), other);
    if !HasKey(t, k) {
      IndexOfExtended(Keys(t), [k], other);
    }
    assert IndexOf(Keys(r), other) == j;
    assert r[j] == t[j];
  }

  /** AHFStatFile's class-level table. */
  const AhfTable: Table := [
    ("n_gas", Translated(["n_gas"])),
    ("n_star", Translated(["n_star"])),
    ("n_dm", Translated(["n_gas", "n_star", "npart"])),
    ("hostHalo", Translated(["hostHalo"]))
  ]

  /** The table an AHFStatFile instance uses: a copy of the class table
      with `childHalo` added. */
  const AhfInstanceTable: Table := Put(AhfTable, "childHalo", ChildHalo)

  /** The table a RockstarStatFile instance installs in `__init__`. */
  const RockstarTable: Table := [
    ("n_dm", Translated(["Np"])),
    ("n_gas", Translated([])),
    ("n_star", Translated([])),
    ("npart", Translated(["Np"])),
    ("Mvir_Msun", Translated(["Mvir"])),
    ("Rvir_kpc", Translated(["Rvir"])),
    ("X_Mpc", Translated(["X"])),
    ("Y_Mpc", Translated(["Y"])),
    ("Z_Mpc", Translated(["Z"]))
  ]

  /** AmigaIDLStatFile's class-level table. */
  const AmigaTable: Table := [
    ("n_dm", Translated(["N_dark"])),
    ("n_gas", Translated(["N_gas"])),
    ("n_star", Translated(["N_star"])),
    ("npart", Translated(["N_dark", "N_gas", "N_star"]))
  ]

  /** The AHF instance table extends the class table by `childHalo` at
      the end and keeps every class entry; the class table itself has no
      `childHalo`. */
  lemma AhfInstanceTableExtendsClassTable()
    ensures !HasKey(AhfTable, "childHalo")
    ensures Keys(AhfInstanceTable) == Keys(AhfTable) + ["childHalo"]
    ensures Get(AhfInstanceTable, "childHalo") == ChildHalo
    ensures forall k :: HasKey(AhfTable, k) ==>
              HasKey(AhfInstanceTable, k) && Get(AhfInstanceTable, k) == Get(AhfTable, k)
  {
    AhfTableKeys();
    forall k | HasKey(AhfTable, k)
      ensures HasKey(AhfInstanceTable, k) && Get(AhfInstanceTable, k) == Get(AhfTable, k)
    {
      PutKeepsOtherEntry(AhfTable, "childHalo", ChildHalo, k);
    }
  }

  lemma AhfTableKeys()
    ensures Keys(AhfTable) == ["n_gas", "n_star", "n_dm", "hostHalo"]
    ensures !HasKey(AhfTable, "childHalo")
  {
    assert Keys(AhfTable) == ["n_gas", "n_star", "n_dm", "hostHalo"];
  }

  /** The raw columns `iter_rows` asks for: each translated argument is
      replaced by its inputs, any other argument is kept. */
  function RawArgs(t: Table, args: seq<string>): (raw: seq<string>)
    ensures forall a :: a in args && !HasKey(t, a) ==> a in raw
    ensures forall a :: a in args && HasKey(t, a) ==> forall x :: x in Inputs(Get(t, a)) ==> x in raw
  {
    if |args| == 0 then []
    else
      var head := if HasKey(t, args[0]) then Inputs(Get(t, args[0])) else [args[0]];
      var raw := head + RawArgs(t, args[1..]);
      assert forall a :: a in args ==> a == args[0] || a in args[1..];
      raw
  }

  /** Every input of a translated argument is read from the file. */
  lemma InputInRawArgs(t: Table, args: seq<string>, a: string, x: string)
    requires a in args && HasKey(t, a) && x in Inputs(Get(t, a))
    ensures x in RawArgs(t, args)
  {}
}

=== FILE: wrappers.dfy ===
/** Option and Result datatypes shared by the model's modules. */
module Wrappers {

  datatype Option<+T> = None | Some(value: T) {
    function GetOr(default: T): T {
      match this
      case Some(v) => v
      case None => default
    }
  }

  datatype Result<+R, +E> = Success(value: R) | Failure(error: E)
}
